=== FILE: README.md ===
# brvf-tools regression runner and ELF-to-hex converter, modelled in Dafny

This project models the core of the RISC-V ISA regression tools:

- **The regression runner** (`Run_regression.py`):
  - how the architecture string is extracted and the ISA test families chosen;
  - the filter that picks ELF test files out of the test directory;
  - the shared claim cursor through which worker processes take tests exactly once;
  - each worker's executed/passed counters and their publication into the shared results table;
  - the aggregator that sums that table into the final report;
  - for one test: the two command lines, the PASS/FAIL classification of the simulator output, and the log and trace file names.
- **The ELF-to-hex converter** (`elf_to_hex/elf_to_hex.c`):
  - the header checks of `c_mem_load_elf`;
  - the fold over the sections: address bounds, the too-large abort, byte copying, and the symbol search with its `symbol_table.txt`;
  - the address-range check in `main`;
  - `write_mem_hex_file`, which writes a Verilog `$readmemh` image of 32-bit words.

Each module sits in its own file:

- `wrappers.dfy`: `Option`/`Result`.
- `machine.dfy`: `uint64_t` and bytes. It defines wrap-around subtraction and a zero-initialised memory read.
- `strings.dfy`: the Python string and path operations the runner uses. They are `find`, `in`, ASCII `upper`/`lower`, `os.path.split`'s tail, two-argument `os.path.join` and `rsplit('.', 1)[0]`.
- `numerals.dfy`: `str()` of a natural, C's `%x`/`%0Nx`, and reading a numeral back.
- `arch_string.dfy`, `test_families.dfy`, `test_filter.dfy`: selecting the tests.
- `work_queue.dfy`: the claim cursor and any interleaving of claims.
- `isa_test.dfy`: `do_isa_test`.
- `regression.dfy`: the workers and the aggregator, as a state machine stepped by an arbitrary schedule.
- `elf_load.dfy`: `c_mem_load_elf` on abstract section records.
- `hex_image.dfy`: `write_mem_hex_file`, the text of its lines, and what a `$readmemh` reader loads from them.
- `elf_to_hex.dfy`: `main` after argument parsing.

Integers are unbounded in Dafny. Each of these `uint64_t` computations in the converter can wrap, and each is written with an explicit `% 2^64`:

- `sh_addr + d_size - 1`;
- `(addr2 + 3) & ~3`;
- `a1 - base_addr`;
- `max_addr - 4`;
- `base_addr + mem_size * 1024`.

Lemmas that want the non-wrapping case state it as a precondition. The `memcpy` destination `&mem_buf[sh_addr] + i` is different: it is a pointer into the buffer, not a `uint64_t` value, so the model writes byte `i` at the unbounded address `sh_addr + i`. A section whose bytes run past 2^64 gets a wrapped last byte that can pass the too-large check (`ElfLoad.WrappingSectionAccepted`), and the C code then writes outside the buffer.

`write_mem_hex_file` is modelled as written, not as its comment describes it. The comment says it writes up to the word containing `addr2`. The code rounds `addr2 + 3` down to a word, so when `addr2` is word-aligned the word holding it is not written. `HexImage.AlignedEndDropped` states this, and `ElfToHex.SectionBytesInImage` carries it as a side condition. In the same way, the trailing-word test is a strict `<`. `HexImage.TopWordPresence` states exactly when the top word of the memory window ends up in the image.

## Model

| member | source | states |
|---|---|---|
| ArchString.ExtractArchString | Run_regression.py:216-241 | None exactly when neither "RV32" nor "RV64" occurs in the upper-cased input (the error exit); otherwise the result starts with RV32 if it occurs anywhere, else RV64, at the first occurrence, followed by the maximal run of 'A'..'Z' read from the original input |
| ArchString.UpperRun | Run_regression.py:233-238 | the extension loop takes the longest run of upper-case letters from index k, and stops at the end or at the first other character |
| ArchString.LowerCaseExtensionDropped | Run_regression.py:230-241 | a lower-case letter right after the prefix gives the bare "RV32" (so "rv32imac" selects no extensions) |
| TestFamilies.ExtensionTags | Run_regression.py:266-281 | one "u<x>-p" tag (two, with "u<x>-v", in supervisor mode) per extension letter present, each naming a letter of "mafdc" |
| TestFamilies.ExtensionTagsMembers | Run_regression.py:266-281 | a tag is produced iff some extension letter present contributes it |
| TestFamilies.SelectTestFamilies | Run_regression.py:246-283 | the list starts with rv<w>ui-p and rv<w>mi-p, then rv<w>ui-v and rv<w>si-p when "s" occurs; its length is 2, plus 2 for supervisor mode, plus one family per present extension letter (two in supervisor mode) |
| TestFamilies.SelectedFamilies | Run_regression.py:246-283 | a family is listed iff the declarative selection rule (width from "32", integer tags, supervisor tags when "s" occurs, extension tags for the letters present) picks it |
| TestFamilies.FamilyTagsDistinct | Run_regression.py:246-281 | no tag is produced twice: the integer and supervisor tags differ from every extension tag, and distinct letters give distinct tags |
| TestFamilies.SelectedFamiliesDistinct | Run_regression.py:246-283 | no family is listed twice |
| TestFamilies.ExtensionTagsSplit | Run_regression.py:266-281 | the extension tags are those of the letters before letter k, then letter k's own, then those of the letters after it, in that order |
| TestFamilies.TagPosition | Run_regression.py:246-283 | a present letter's "u<x>-p" tag sits at index 2·m plus the number of tags of the letters before it (m = 2 in supervisor mode, else 1), with "u<x>-v" right after it in supervisor mode |
| TestFamilies.FamilyPosition | Run_regression.py:246-283 | the returned list holds a present letter's "-p" family at index 2·m plus the number of tags of the letters before it, and its "-v" family right after it in supervisor mode, which with the length fixes the whole order |
| TestFamilies.ExtensionFamiliesInOrder | Run_regression.py:277-281 | when letter k precedes letter l in m, a, f, d, c and k is present, every tag of k lies before the first place a tag of l can occupy, so k's families are listed first |
| TestFilter.MatchesSomeFamily | Run_regression.py:145-148 | true iff some family name occurs in the basename |
| TestFilter.AcceptElfFile | Run_regression.py:134-148 | a file is taken iff its basename has no '.', is not excluded, and contains some family name |
| TestFilter.AcceptPath | Run_regression.py:134-146 | on a full path, the test is made on the part after the last '/': no '.', not excluded, some family occurs |
| TestFilter.DirectoryIrrelevant | Run_regression.py:134-137 | only the basename matters: a '.' in the directory part does not reject a file |
| WorkQueue.ClaimNext | Run_regression.py:329-334 | a claim always advances the cursor by one and yields the index it read exactly when that index is below the test count |
| WorkQueue.Interleave | Run_regression.py:329-340 | whatever the interleaving of workers, the k-th claim yields test k while k < n and "exhausted" afterwards |
| WorkQueue.ClaimsDistinct | Run_regression.py:329-334 | no two claims yield the same test |
| WorkQueue.ClaimsInRange | Run_regression.py:329-340 | every claimed index is a valid test index |
| WorkQueue.ClaimsExactlyOnce | Run_regression.py:329-340 | after at least n claims every test index has been handed out exactly once |
| IsaTest.SimulatorCommand | Run_regression.py:372-375 | simulator, "+tohost", the JTAG and VPI port arguments, then "+v1"/"+v2" only for verbosity 1/2 |
| IsaTest.WorkerDir | Run_regression.py:311 | worker w's directory is "./worker_" followed by a numeral that reads back as w |
| IsaTest.WorkerResourcesDistinct | Run_regression.py:372-373 | different workers get different port arguments and different scratch directories |
| IsaTest.JtagPortNumber | Run_regression.py:372 | the JTAG port of worker w is 6660+w for w < 10, and beyond 65535 from w = 10 on |
| IsaTest.VpiPortNumber | Run_regression.py:373 | the VPI port of worker w is 7770+w for w < 10, and beyond 65535 from w = 10 on |
| IsaTest.Passed | Run_regression.py:390 | a test passes iff "PASS" occurs somewhere in the simulator output |
| IsaTest.LogPath | Run_regression.py:393-394 | for a basename without '/', the log is <logs_path>/<pass or fail>/<basename>.log, and its basename is <basename>.log |
| IsaTest.LogPathsDistinct | Run_regression.py:393-394 | logs of different verdicts, or of tests with different basenames, never share a path |
| IsaTest.TracePath | Run_regression.py:404 | the trace name keeps the log path up to its last '.' (all of it if there is none) and appends ".trace_data" |
| IsaTest.TraceNextToLog | Run_regression.py:403-404 | the trace file is the log path with ".log" replaced by ".trace_data" |
| IsaTest.RunIsaTest | Run_regression.py:364-408 | the two command lines of the worker; verdict from the simulator output alone; log at <logs_path>/<pass or fail>/<basename>.log holding converter then simulator output; trace path present iff a trace was produced, next to the log |
| Regression.Start | Run_regression.py:173-177 | the cursor starts at 0, with a zeroed results table of two slots per worker |
| Regression.Step | Run_regression.py:329-349 | one loop pass of one worker: claim, then count the test (and its pass) or publish the counters into slots 2w, 2w+1 and stop; other workers and slots are untouched |
| Regression.StepInv | Run_regression.py:329-349 | every step, by any worker, keeps the run invariant (counters sum to the tests claimed so far, passes to the passing ones among them, the table shows exactly the finished workers) |
| Regression.RunScheduleInv | Run_regression.py:329-349 | every interleaving keeps the run invariant |
| Regression.Aggregate | Run_regression.py:193-202 | the sums of slots 2w and 2w+1 over the workers; when no worker reports more passes than tests, the totals do not either, so FAIL is not negative |
| Regression.AggregatePublished | Run_regression.py:193-202 | once all workers are done, the aggregator's sums equal the workers' counters |
| Regression.AllDoneTotals | Run_regression.py:193-208 | with at least one worker, after all finish, executed equals the test count and passed equals the number of passing tests |
| Regression.RunRegression | Run_regression.py:155-208 | no report for an empty test list; otherwise total = n, and with at least one worker executed = n, PASS = passing tests, FAIL = n - PASS; with zero workers all counts are 0 |
| ElfLoad.LastByte | elf_to_hex/elf_to_hex.c:159-160 | the section's last byte address sh_addr + d_size - 1, one below sh_addr for an empty section, wrapping to all-ones for an empty section at 0 |
| ElfLoad.IsLoadable | elf_to_hex/elf_to_hex.c:147-153 | the selection of code and data sections by type and flags; a selected section is never a symbol table, so the else-if never searches one |
| ElfLoad.Copy | elf_to_hex/elf_to_hex.c:170-172 | the copied range holds the data, every other byte is unchanged |
| ElfLoad.LoadSection | elf_to_hex/elf_to_hex.c:157-172 | aborts iff the widened maximum reaches the buffer size; symbols and symbol file untouched |
| ElfLoad.ProcessSection | elf_to_hex/elf_to_hex.c:147-236 | non-loadable sections never fail and leave bounds and memory alone; non-symbol-table sections leave the symbols alone; other sections change nothing |
| ElfLoad.ProcessSectionMem | elf_to_hex/elf_to_hex.c:147-172 | after one more section each byte it writes holds its data, and every other byte keeps its value |
| ElfLoad.LoadSections | elf_to_hex/elf_to_hex.c:138-237 | after a successful fold the maximum address is below the buffer size |
| ElfLoad.LoadElf | elf_to_hex/elf_to_hex.c:94-122 | succeeds iff class is 32/64, machine is 243, encoding is little-endian, and the fold succeeds; bit width 32 or 64 by class |
| ElfLoad.LoadFailsIffTooLarge | elf_to_hex/elf_to_hex.c:157-168 | loading fails iff some loadable section's last byte is at or beyond the buffer size |
| ElfLoad.WrappingSectionAccepted | elf_to_hex/elf_to_hex.c:159-167 | a section whose bytes run past 2^64 has a wrapped last byte and passes the too-large check |
| ElfLoad.AddressBounds | elf_to_hex/elf_to_hex.c:132-160 | min_addr is the least start and max_addr the greatest last byte of the loadable sections (all-ones and 0 when there are none) |
| ElfLoad.LoadedBytes | elf_to_hex/elf_to_hex.c:170-172 | each byte holds the data of the last non-NOBITS loadable section covering it, or 0 when none does |
| ElfLoad.ScanSymbol | elf_to_hex/elf_to_hex.c:199-210 | one symbol updates exactly the variable it sets under the else-if chain, if any |
| ElfLoad.ScanSymbols | elf_to_hex/elf_to_hex.c:192-211 | after the loop over one table each variable holds the value of the last symbol that sets it, or its value before the loop |
| ElfLoad.LoadScansTables | elf_to_hex/elf_to_hex.c:178-233 | the symbols found are one scan over all symbol tables in order; the symbol file exists iff a symbol table was seen, and lists the symbols found |
| ElfLoad.FoundSymbols | elf_to_hex/elf_to_hex.c:192-211 | _start, exit and tohost each hold the last setting symbol's value across all tables, or all-ones ("not found") |
| ElfLoad.SymbolFileRoundTrip | elf_to_hex/elf_to_hex.c:216-229 | reading symbol_table.txt back gives exactly the found addresses, absent lines meaning "not found" |
| ElfLoad.SymbolFileLines | elf_to_hex/elf_to_hex.c:216-229 | exactly one newline-terminated line per symbol found, in the order _start, exit, tohost, each its label followed by the `%0lx` address: none when nothing was found, three when all were |
| ElfLoad.SymbolFileLeft | elf_to_hex/elf_to_hex.c:162-231 | the symbol file on disk when the section loop ends; after a complete loop it is the loop's own |
| ElfLoad.SymbolFileAtStop | elf_to_hex/elf_to_hex.c:162-231 | when loading stops at a too-large section, the sections before it all load and the symbol file left is theirs |
| ElfLoad.SymbolFileLeftContents | elf_to_hex/elf_to_hex.c:178-231 | the symbol file left exists iff a symbol table precedes the stopping point, and lists what the search over those tables found |
| HexImage.AlignDown | elf_to_hex/elf_to_hex.c:337 | masking with ~3 gives the word-aligned address at or just below |
| HexImage.EndAddr | elf_to_hex/elf_to_hex.c:338 | a2 is aligned and, without wrap-around, lies in [addr2, addr2 + 4), equal to addr2 exactly when addr2 is aligned |
| HexImage.WriteMemHex | elf_to_hex/elf_to_hex.c:327-365 | the file starts with an "@" line, and every data line holds one four-byte word |
| HexImage.LineText | elf_to_hex/elf_to_hex.c:340-347 | each line ends in a newline; a data line is eight hex digits; an "@" line is "@" and seven digits when the index is below 16^7 |
| HexImage.DataLines | elf_to_hex/elf_to_hex.c:344-351 | one data line per loop iteration |
| HexImage.DataLinesAt | elf_to_hex/elf_to_hex.c:344-347 | line k holds the word at a1 + 4k |
| HexImage.LineRoundTrip | elf_to_hex/elf_to_hex.c:340-360 | every "@" line (%07x index) and data line (bytes +3 down to +0 as %02x) reads back as the line written |
| HexImage.FeedData | elf_to_hex/elf_to_hex.c:344-351 | reading the data lines stores the words at consecutive indices and leaves other indices alone |
| HexImage.WrittenImage | elf_to_hex/elf_to_hex.c:327-365 | the image read back holds the loop's words from the first "@" index on, plus the zero word at the index of max_addr - 4 iff the trailing word is written |
| HexImage.BytesWritten | elf_to_hex/elf_to_hex.c:337-351 | with an aligned base, every byte from base up to a2 is in the image at its word and position |
| HexImage.AlignedEndDropped | elf_to_hex/elf_to_hex.c:338 | with a word-aligned base, when addr2 is aligned its word is absent from the image or only the trailing zero word |
| HexImage.TopWordPresence | elf_to_hex/elf_to_hex.c:353-355 | with a word-aligned base and max_addr, the word below max_addr is in the image iff the loop does not end exactly at max_addr - 4 |
| ElfToHex.MaxMemAddr | elf_to_hex/elf_to_hex.c:421 | base + mem_size*1024, or a smaller wrapped value when it overflows 64 bits |
| ElfToHex.ElfToHex | elf_to_hex/elf_to_hex.c:421-443 | fails with the load error iff loading fails; is rejected as out of range iff min_addr < base or max_mem_addr <= max_addr; no symbol file after a rejected header, and the loop's own after a complete load, whether or not the range check passes |
| ElfToHex.SymbolFileOfRun | elf_to_hex/elf_to_hex.c:162-231 | whatever the outcome, a run with an accepted header leaves a symbol file iff a symbol table precedes the stopping section, listing what was found before it |
| ElfToHex.AcceptedBytesInWindow | elf_to_hex/elf_to_hex.c:430-434 | in an accepted file, every byte loaded by a section that does not run past 2^64 lies inside [base, max_mem_addr) |
| ElfToHex.WrappingSectionOutsideWindow | elf_to_hex/elf_to_hex.c:430-434 | with base 0 and a 16 KB window, a four-byte section at 2^64 - 2 passes both checks, and its first byte lies outside the window |
| ElfToHex.ImageHoldsMemory | elf_to_hex/elf_to_hex.c:443 | with an aligned base the image holds every byte from base to max_addr, except an aligned max_addr |
| ElfToHex.SectionBytesInImage | elf_to_hex/elf_to_hex.c:426-443 | end to end, with a word-aligned base: each byte of a loaded section that does not run past 2^64 and is not overwritten later is in the image, unless it is an aligned max_addr |

## Left out

- Concurrency. The `multiprocessing` processes, their start and join, and the locks are not modelled. Each locked claim and each publication is one atomic step of a sequential state machine, and any schedule of workers is allowed.
- External processes. `subprocess.run`, its 30-second timeout and the Python-version branch are not modelled. The outputs of the converter and the simulator, and whether a trace file appeared, are parameters. A timeout would raise in the worker, and that is not modelled.
- File system. The following are not modelled:
  - `os.stat`/`os.listdir` in `traverse`;
  - `mkdir`, `chdir` and `rename`;
  - the log writes;
  - `isa-tests.lst`;
  - the ELF file itself. libelf's view of it is replaced by header and section records.
- The fopen of `symbol_table.txt` is assumed to succeed.
- The hex file's fopen failure is not modelled.
- Argument parsing. `argparse`, `getopt`, `atoi` and `sscanf` are not modelled; their results are parameters.
  - `mem_size` is taken as the `uint64_t` value `atoi` produced.
  - The default worker count `cpu_count() // 3` can be 0. The model allows 0 workers; then nothing runs and the totals are 0.
- The runner calls the converter with positional arguments (Run_regression.py:370). The converter reads only `-e`/`-h` options (elf_to_hex/elf_to_hex.c:395-402). The model treats the conversion as an opaque step whose output goes into the log, and does not model this mismatch.
- Diagnostics. No printed text is modelled except the hex digits and "@" index of the hex-file lines. This covers the `//` comments of the hex lines, the progress messages, the summary wording, and the messages before each `exit (1)`.
- The 0xD0000000-byte static buffer is a map from address to byte, reading 0 where nothing was copied. Its size survives as `MAX_MEM_SIZE` in the too-large check.
- Machine word width of the runner. The claim cursor and the counters are unbounded naturals. The source's unsigned long cannot overflow with realistic test counts.
- Non-ASCII text. `str.upper`/`str.lower` are modelled on ASCII letters only; other characters are left unchanged.
- libelf failures: library version, open, `elf_begin`, not an ELF file, `gelf_getehdr`. Each exits with status 1 before any section is read. They are not distinguished from a valid header here.
- Regression.RunRegression: the totals assume every worker enters its loop. A worker whose "./worker_<w>" exists but is not a directory returns at once (Run_regression.py:314-316): it claims nothing and leaves its slots 0. If every worker does so, the source reports 0 executed, while the model reports every test run.
- Log collisions: `traverse` descends into subdirectories, and a log path depends only on the basename. Two tests with the same basename in different directories get the same log path, and the later log overwrites the earlier one. `IsaTest.LogPathsDistinct` is stated for different basenames only.
- ElfLoad.LoadedBytes: for a section whose bytes run past 2^64, the model places them at addresses from 2^64 up, where no other section reaches. In C this `memcpy` leaves the buffer and its effect is undefined. `ElfLoad.WrappingSectionAccepted` shows that the too-large check lets such a section through.
- ElfToHex.ImageHoldsMemory: stated for a word-aligned base only. With an unaligned base the first "@" index is `(a1 - base) / 4` computed in 64 bits, which wraps to a huge index. `HexImage.WrittenImage` still describes that image exactly.
- ElfToHex.SectionBytesInImage: stated for a word-aligned base only, for the reason given for `ElfToHex.ImageHoldsMemory`. It also requires that the section does not wrap past 2^64. For such a section the C `memcpy` would write outside the buffer.
- ElfToHex.AcceptedBytesInWindow: stated only for sections that do not run past 2^64. Such a section has a wrapped last byte, so it can pass the range check at elf_to_hex/elf_to_hex.c:430 while its bytes lie outside the window. `ElfToHex.WrappingSectionOutsideWindow` exhibits one.

=== FILE: arch_string.dfy ===
/** `extract_arch_string` of the regression runner: find "RV32" or "RV64" in a
    free-form architecture name and keep the upper-case extension letters that
    follow it. */
module ArchString {
  import opened Wrappers
  import opened Strings

  predicate IsUpperLetter(c: char)
  {
    'A' <= c <= 'Z'
  }

  predicate AllUpperLetters(s: string)
  {
    forall i :: 0 <= i < |s| ==> IsUpperLetter(s[i])
  }

  /** The scanning loop: the longest run of letters 'A'..'Z' in `s` starting at
      index `k`; the first character outside that range ends it. */
  function UpperRun(s: string, k: nat): (r: string)
    requires k <= |s|
    ensures k + |r| <= |s| && s[k..k + |r|] == r
    ensures AllUpperLetters(r)
    ensures k + |r| == |s| || !IsUpperLetter(s[k + |r|])
    decreases |s| - k
  {
    if k < |s| && IsUpperLetter(s[k]) then [s[k]] + UpperRun(s, k + 1) else []
  }

  /** `r` is a prefix found at index `j` of the upper-cased input, followed
      by the longest run of upper-case letters of the input right after it. */
  predicate FoundAt(s: string, r: string, j: nat)
  {
    && |r| >= 4 && j + |r| <= |s|
    && FirstOccurrence(Upper(s), r[..4], j)
    && s[j + 4..j + |r|] == r[4..]
    && AllUpperLetters(r[4..])
    && (j + |r| == |s| || !IsUpperLetter(s[j + |r|]))
  }

  /** The architecture string, or None where the runner prints an error and
      exits with status 1. The prefix is searched for in the upper-cased
      input, "RV32" taking precedence over "RV64" wherever each occurs; the
      extension letters are read from the input as given, so a lower-case
      letter right after the prefix leaves the extension empty. */
  function ExtractArchString(s: string): (r: Option<string>)
    ensures r.None? <==> !Contains(Upper(s), "RV32") && !Contains(Upper(s), "RV64")
    ensures r.Some? ==> |r.value| >= 4
    ensures r.Some? && Contains(Upper(s), "RV32") ==> r.value[..4] == "RV32"
    ensures r.Some? && !Contains(Upper(s), "RV32") ==> r.value[..4] == "RV64"
    ensures r.Some? ==> exists j: nat :: FoundAt(s, r.value, j)
  {
    var s1 := Upper(s);
    match Find(s1, "RV32")
    case Some(j) => ArchFound(s, j, "RV32"); Some(Arch(s, j))
    case None =>
      match Find(s1, "RV64")
      case Some(j) => ArchFound(s, j, "RV64"); Some(Arch(s, j))
      case None => None
  }

  lemma ArchFound(s: string, j: nat, p: string)
    requires FirstOccurrence(Upper(s), p, j) && |p| == 4
    ensures j + 4 <= |s| && Arch(s, j)[..4] == p && FoundAt(s, Arch(s, j), j)
  {
  }

  /** `rv + extns` once the prefix has been found at index `j` of the upper-cased input. */
  function Arch(s: string, j: nat): (r: string)
    requires j + 4 <= |s|
    ensures |r| >= 4 && r[..4] == Upper(s)[j..j + 4]
    ensures j + |r| <= |s| && r[4..] == s[j + 4..j + |r|] == UpperRun(s, j + 4)
  {
    Upper(s)[j..j + 4] + UpperRun(s, j + 4)
  }

  /** Only upper-case letters count as extensions: when the character after
      the prefix is anything else (a lower-case letter, say, as in "rv32imac"),
      the result is the bare prefix. */
  lemma LowerCaseExtensionDropped(s: string, j: nat)
    requires FirstOccurrence(Upper(s), "RV32", j)
    requires j + 4 < |s| && !IsUpperLetter(s[j + 4])
    ensures ExtractArchString(s) == Some("RV32")
  {
    assert Find(Upper(s), "RV32") == Some(j);
    assert UpperRun(s, j + 4) == [];
    assert Arch(s, j) == Upper(s)[j..j + 4] == "RV32";
  }
}

=== FILE: elf_load.dfy ===
/** The section and symbol logic of `c_mem_load_elf` in the ELF-to-hex
    converter. libelf's view of the file is replaced by plain records: a
    header, and the sections in file order, each with its type, flags,
    address, data bytes and (for a symbol table) its symbols. */
module ElfLoad {
  import opened Wrappers
  import opened Machine
  import opened Numerals

  /** The size of the static load buffer; no loaded byte may lie at or above it. */
  const MAX_MEM_SIZE: nat := 0xD000_0000

  const SHT_PROGBITS: nat := 1
  const SHT_SYMTAB: nat := 2
  const SHT_NOBITS: nat := 8
  const SHT_INIT_ARRAY: nat := 14
  const SHT_FINI_ARRAY: nat := 15

  const SHF_WRITE: bv64 := 1
  const SHF_ALLOC: bv64 := 2
  const SHF_EXECINSTR: bv64 := 4

  const ELFCLASS32: nat := 1
  const ELFCLASS64: nat := 2
  const ELFDATA2LSB: nat := 1
  const EM_RISCV: nat := 243

  /** The parts of the ELF header that are checked. */
  datatype Header = Header(elfClass: nat, machine: nat, dataEncoding: nat)

  datatype Symbol = Symbol(name: string, value: u64)

  /** One section. `data` is what libelf hands back: its length is the data
      size, and for a NOBITS section its contents are not used. `symbols`
      matters only for a symbol table. */
  datatype Section = Section(shType: nat, flags: bv64, addr: u64, data: seq<byte>, symbols: seq<Symbol>)

  /** The names searched for in the symbol tables. */
  datatype SymbolNames = SymbolNames(start: string, exit: string, tohost: string)

  const DefaultNames: SymbolNames := SymbolNames("_start", "exit", "tohost")

  /** The addresses found; ALL_ONES means not found. */
  datatype Found = Found(start: u64, exit: u64, tohost: u64)

  /** The state of the section loop: the address bounds, the memory buffer,
      the symbols found, and the lines of "symbol_table.txt" if it has been written. */
  datatype Scan = Scan(minAddr: u64, maxAddr: u64, mem: map<nat, byte>, found: Found,
                       symbolFile: Option<seq<string>>)

  datatype LoadError = NotElfClass32Or64 | NotRiscV | BigEndian | TooLarge(maxAddr: u64)

  /** What a successful load leaves behind for `main`. */
  datatype Loaded = Loaded(bitwidth: nat, scan: Scan)

  /** A code or data section that is copied into memory: PROGBITS, NOBITS,
      INIT_ARRAY or FINI_ARRAY, with at least one of the write, alloc and
      execute flags. */
  predicate IsLoadable(s: Section)
    ensures IsLoadable(s) ==> s.shType != SHT_SYMTAB
  {
    && (s.shType == SHT_PROGBITS || s.shType == SHT_NOBITS
        || s.shType == SHT_INIT_ARRAY || s.shType == SHT_FINI_ARRAY)
    && ((s.flags & SHF_WRITE) != 0 || (s.flags & SHF_ALLOC) != 0 || (s.flags & SHF_EXECINSTR) != 0)
  }

  /** The address of a section's last byte, `sh_addr + d_size - 1` in
      `uint64_t`: one below the address for an empty section, wrapping to
      ALL_ONES for an empty section at address 0. */
  function LastByte(s: Section): (r: u64)
    ensures 1 <= s.addr + |s.data| <= U64 ==> r == s.addr + |s.data| - 1
    ensures |s.data| == 0 && s.addr == 0 ==> r == ALL_ONES
  {
    (s.addr + |s.data| + ALL_ONES) % U64
  }

  /** Section `s` supplies the byte at address `a`. */
  predicate Writes(s: Section, a: nat)
  {
    IsLoadable(s) && s.shType != SHT_NOBITS && s.addr <= a < s.addr + |s.data|
  }

  /** `memcpy (&mem_buf[addr], data, size)`: the bytes of `data` land at
      `addr`, `addr + 1`, ...; every other byte keeps its value. */
  function Copy(mem: map<nat, byte>, addr: nat, data: seq<byte>): (r: map<nat, byte>)
    ensures forall a: nat :: addr <= a < addr + |data| ==> MemAt(r, a) == data[a - addr]
    ensures forall a: nat :: !(addr <= a < addr + |data|) ==> MemAt(r, a) == MemAt(mem, a)
    decreases |data|
  {
    if |data| == 0 then mem
    else
      Copy(mem[addr := data[0]], addr + 1, data[1..])
  }

  /** A loadable section: widen the address bounds, stop if the highest
      address reaches the buffer size, otherwise copy the bytes (none for
      NOBITS, whose memory stays zero). */
  function LoadSection(st: Scan, s: Section): (r: Result<Scan, LoadError>)
    ensures r.Err? <==> MAX_MEM_SIZE <= (if st.maxAddr < LastByte(s) then LastByte(s) else st.maxAddr)
    ensures r.Ok? ==> r.value.found == st.found && r.value.symbolFile == st.symbolFile
  {
    var minAddr := if s.addr < st.minAddr then s.addr else st.minAddr;
    var maxAddr := if st.maxAddr < LastByte(s) then LastByte(s) else st.maxAddr;
    if maxAddr >= MAX_MEM_SIZE then Err(TooLarge(maxAddr))
    else
      var mem := if s.shType != SHT_NOBITS then Copy(st.mem, s.addr, s.data) else st.mem;
      Ok(st.(minAddr := minAddr, maxAddr := maxAddr, mem := mem))
  }

  /** One symbol against the three names, in an else-if chain: it updates
      exactly the variable it sets, if any. */
  function ScanSymbol(f: Found, sym: Symbol, names: SymbolNames): (r: Found)
    ensures forall role :: Get(r, role) == if Sets(sym, names, role) then sym.value else Get(f, role)
  {
    if sym.name == names.start then f.(start := sym.value)
    else if sym.name == names.exit then f.(exit := sym.value)
    else if sym.name == names.tohost then f.(tohost := sym.value)
    else f
  }

  /** The symbol loop over one table: afterwards each variable holds the
      value of the last symbol that sets it, or what it held before. */
  function ScanSymbols(f: Found, syms: seq<Symbol>, names: SymbolNames): (r: Found)
    ensures forall role :: LastSetting(syms, names, role, Get(f, role), Get(r, role))
  {
    if |syms| == 0 then f
    else
      var before := ScanSymbols(f, syms[..|syms| - 1], names);
      var r := ScanSymbol(before, syms[|syms| - 1], names);
      forall role ensures LastSetting(syms, names, role, Get(f, role), Get(r, role)) {
        LastSettingStep(syms, names, role, Get(f, role), Get(before, role), Get(r, role));
      }
      r
  }

  /** The lines of "symbol_table.txt": one per symbol that was found, in the
      order _start, exit, tohost, with the address in lower-case hex. */
  function SymbolFileLines(f: Found): (r: seq<string>)
    ensures |r| == 3 <==> f.start != ALL_ONES && f.exit != ALL_ONES && f.tohost != ALL_ONES
    ensures |r| == 0 <==> f.start == ALL_ONES && f.exit == ALL_ONES && f.tohost == ALL_ONES
    ensures forall i :: 0 <= i < |r| ==> |r[i]| >= 14 && r[i][|r[i]| - 1] == '\n'
    ensures |r| == (if f.start != ALL_ONES then 1 else 0) + (if f.exit != ALL_ONES then 1 else 0)
                   + (if f.tohost != ALL_ONES then 1 else 0)
    ensures f.start != ALL_ONES ==> r[0] == StartLabel + Show(f.start, 16) + "\n"
    ensures f.exit != ALL_ONES ==>
              r[if f.start != ALL_ONES then 1 else 0] == ExitLabel + Show(f.exit, 16) + "\n"
    ensures f.tohost != ALL_ONES ==> r[|r| - 1] == TohostLabel + Show(f.tohost, 16) + "\n"
  {
    SymbolLine(StartLabel, f.start) + SymbolLine(ExitLabel, f.exit) + SymbolLine(TohostLabel, f.tohost)
  }

  /** The line for one symbol: its label and `%0lx` address, none if not found. */
  function SymbolLine(tag: string, v: u64): seq<string>
  {
    if v == ALL_ONES then [] else [tag + Show(v, 16) + "\n"]
  }

  const StartLabel: string := "_start    0x"
  const ExitLabel: string := "exit      0x"
  const TohostLabel: string := "tohost    0x"

  /** One iteration of the section loop: load a loadable section, search a
      symbol table (and rewrite the symbol file from everything found so
      far), ignore anything else. */
  function ProcessSection(st: Scan, s: Section, names: SymbolNames): (r: Result<Scan, LoadError>)
    ensures !IsLoadable(s) ==> r.Ok?
    ensures r.Ok? && !IsLoadable(s) ==>
              r.value.minAddr == st.minAddr && r.value.maxAddr == st.maxAddr && r.value.mem == st.mem
    ensures r.Ok? && s.shType != SHT_SYMTAB ==> r.value.found == st.found && r.value.symbolFile == st.symbolFile
    ensures !IsLoadable(s) && s.shType != SHT_SYMTAB ==> r == Ok(st)
  {
    if IsLoadable(s) then LoadSection(st, s)
    else if s.shType == SHT_SYMTAB then
      var f := ScanSymbols(st.found, s.symbols, names);
      Ok(st.(found := f, symbolFile := Some(SymbolFileLines(f))))
    else Ok(st)
  }

  /** Nothing loaded, nothing found. */
  const Initial: Scan := Scan(ALL_ONES, 0, map[], Found(ALL_ONES, ALL_ONES, ALL_ONES), None)

  /** The section loop, over the sections in file order; it stops at the first error. */
  function LoadSections(secs: seq<Section>, names: SymbolNames): (r: Result<Scan, LoadError>)
    ensures r.Ok? ==> r.value.maxAddr < MAX_MEM_SIZE
  {
    if |secs| == 0 then Ok(Initial)
    else
      match LoadSections(secs[..|secs| - 1], names)
      case Err(e) => Err(e)
      case Ok(st) => ProcessSection(st, secs[|secs| - 1], names)
  }

  /** The header passes the class, machine and encoding checks. */
  predicate HeaderAccepted(h: Header)
  {
    (h.elfClass == ELFCLASS32 || h.elfClass == ELFCLASS64) && h.machine == EM_RISCV && h.dataEncoding == ELFDATA2LSB
  }

  /** `c_mem_load_elf`: the header checks, in the order the source makes
      them, then the section loop. */
  function LoadElf(h: Header, secs: seq<Section>, names: SymbolNames): (r: Result<Loaded, LoadError>)
    ensures r.Ok? <==> && (h.elfClass == ELFCLASS32 || h.elfClass == ELFCLASS64)
                       && h.machine == EM_RISCV && h.dataEncoding == ELFDATA2LSB
                       && LoadSections(secs, names).Ok?
    ensures r.Ok? <==> HeaderAccepted(h) && LoadSections(secs, names).Ok?
    ensures r.Err? && !HeaderAccepted(h) ==> !r.error.TooLarge?
    ensures r.Ok? ==> r.value.bitwidth == (if h.elfClass == ELFCLASS32 then 32 else 64)
  {
    if h.elfClass != ELFCLASS32 && h.elfClass != ELFCLASS64 then Err(NotElfClass32Or64)
    else if h.machine != EM_RISCV then Err(NotRiscV)
    else if h.dataEncoding != ELFDATA2LSB then Err(BigEndian)
    else
      match LoadSections(secs, names)
      case Err(e) => Err(e)
      case Ok(st) => Ok(Loaded(if h.elfClass == ELFCLASS32 then 32 else 64, st))
  }

  /** Loading stops with an error exactly when some loadable section reaches
      past the buffer; since the maximum only grows, the abort happens at the
      first such section, before its bytes are copied. */
  lemma {:induction false} LoadFailsIffTooLarge(secs: seq<Section>, names: SymbolNames)
    ensures LoadSections(secs, names).Err? <==>
            exists i :: 0 <= i < |secs| && IsLoadable(secs[i]) && MAX_MEM_SIZE <= LastByte(secs[i])
  {
    if |secs| > 0 {
      var pre := secs[..|secs| - 1];
      LoadFailsIffTooLarge(pre, names);
      assert forall i :: 0 <= i < |pre| ==> pre[i] == secs[i];
    }
  }

  /** After a successful load, `minAddr` is the least start address and
      `maxAddr` the greatest last-byte address of the loadable sections; with
      no loadable section they keep their initial ALL_ONES and 0. */
  lemma {:induction false} AddressBounds(secs: seq<Section>, names: SymbolNames)
    requires LoadSections(secs, names).Ok?
    ensures var st := LoadSections(secs, names).value;
            && (forall i :: 0 <= i < |secs| && IsLoadable(secs[i]) ==>
                  st.minAddr <= secs[i].addr && LastByte(secs[i]) <= st.maxAddr)
            && (st.minAddr == ALL_ONES || exists i :: 0 <= i < |secs| && IsLoadable(secs[i]) && secs[i].addr == st.minAddr)
            && (st.maxAddr == 0 || exists i :: 0 <= i < |secs| && IsLoadable(secs[i]) && LastByte(secs[i]) == st.maxAddr)
  {
    if |secs| > 0 {
      var pre := secs[..|secs| - 1];
      AddressBounds(pre, names);
      assert forall i :: 0 <= i < |pre| ==> pre[i] == secs[i];
    }
  }

  /** After a successful load, each byte of the buffer holds the byte given
      to it by the last loadable, non-NOBITS section covering it, and zero
      if there is none. */
  lemma {:induction false} LoadedBytes(secs: seq<Section>, names: SymbolNames)
    requires LoadSections(secs, names).Ok?
    ensures var mem := LoadSections(secs, names).value.mem;
            forall a: nat :: (forall i :: 0 <= i < |secs| ==> !Writes(secs[i], a)) ==> MemAt(mem, a) == 0
    ensures var mem := LoadSections(secs, names).value.mem;
            forall a: nat, i :: 0 <= i < |secs| && Writes(secs[i], a)
                              && (forall j :: i < j < |secs| ==> !Writes(secs[j], a))
                              ==> MemAt(mem, a) == secs[i].data[a - secs[i].addr]
  {
    if |secs| > 0 {
      var pre := secs[..|secs| - 1];
      var last := secs[|secs| - 1];
      LoadedBytes(pre, names);
      var st := LoadSections(pre, names).value;
      var mem := LoadSections(secs, names).value.mem;
      ProcessSectionMem(st, last, names);
      forall a: nat | forall i :: 0 <= i < |secs| ==> !Writes(secs[i], a)
        ensures MemAt(mem, a) == 0
      {
        assert !Writes(secs[|secs| - 1], a);
        forall i | 0 <= i < |pre| ensures !Writes(pre[i], a) {
          assert pre[i] == secs[i];
        }
      }
      forall a: nat, i | 0 <= i < |secs| && Writes(secs[i], a) && (forall j :: i < j < |secs| ==> !Writes(secs[j], a))
        ensures MemAt(mem, a) == secs[i].data[a - secs[i].addr]
      {
        if i < |pre| {
          assert !Writes(secs[|secs| - 1], a);
          assert pre[i] == secs[i];
          forall j | i < j < |pre| ensures !Writes(pre[j], a) {
            assert pre[j] == secs[j];
          }
        }
      }
    }
  }

  /** The buffer after one more section: its bytes where it writes, the
      previous contents elsewhere. */
  lemma ProcessSectionMem(st: Scan, s: Section, names: SymbolNames)
    requires ProcessSection(st, s, names).Ok?
    ensures forall a: nat :: MemAt(ProcessSection(st, s, names).value.mem, a)
              == if Writes(s, a) then s.data[a - s.addr] else MemAt(st.mem, a)
  {
  }

  /** The symbols of the symbol tables, in file order. */
  function TableSymbols(secs: seq<Section>): seq<Symbol>
  {
    if |secs| == 0 then []
    else TableSymbols(secs[..|secs| - 1])
         + (if secs[|secs| - 1].shType == SHT_SYMTAB then secs[|secs| - 1].symbols else [])
  }

  /** The three variables the symbol search fills in. */
  datatype Role = StartRole | ExitRole | TohostRole

  function Get(f: Found, role: Role): u64
  {
    match role
    case StartRole => f.start
    case ExitRole => f.exit
    case TohostRole => f.tohost
  }

  /** Symbol `sym` updates the variable for `role`. Because of the else-if
      chain, a name equal to the start name never updates exit or tohost,
      and one equal to the exit name never updates tohost. */
  predicate Sets(sym: Symbol, names: SymbolNames, role: Role)
  {
    match role
    case StartRole => sym.name == names.start
    case ExitRole => sym.name != names.start && sym.name == names.exit
    case TohostRole => sym.name != names.start && sym.name != names.exit && sym.name == names.tohost
  }

  /** `v` is the value of the last symbol of `syms` that sets `role`, or
      `initial` if none does. */
  predicate LastSetting(syms: seq<Symbol>, names: SymbolNames, role: Role, initial: u64, v: u64)
  {
    || (exists i :: 0 <= i < |syms| && Sets(syms[i], names, role) && syms[i].value == v
                    && forall j :: i < j < |syms| ==> !Sets(syms[j], names, role))
    || ((forall i :: 0 <= i < |syms| ==> !Sets(syms[i], names, role)) && v == initial)
  }

  /** One more symbol: if it sets `role`, its value becomes the last setting;
      otherwise the last setting of the shorter list carries over. */
  lemma LastSettingStep(syms: seq<Symbol>, names: SymbolNames, role: Role, initial: u64, v: u64, v': u64)
    requires |syms| > 0
    requires LastSetting(syms[..|syms| - 1], names, role, initial, v)
    requires v' == if Sets(syms[|syms| - 1], names, role) then syms[|syms| - 1].value else v
    ensures LastSetting(syms, names, role, initial, v')
  {
    var pre := syms[..|syms| - 1];
    var last := syms[|syms| - 1];
    assert forall i :: 0 <= i < |pre| ==> pre[i] == syms[i];
    if !Sets(last, names, role) {
      if forall i :: 0 <= i < |pre| ==> !Sets(pre[i], names, role) {
      } else {
        var i :| 0 <= i < |pre| && Sets(pre[i], names, role) && pre[i].value == v
                 && forall j :: i < j < |pre| ==> !Sets(pre[j], names, role);
        assert Sets(syms[i], names, role) && syms[i].value == v;
      }
    }
  }

  lemma {:induction false} ScanSymbolsAppend(f: Found, a: seq<Symbol>, b: seq<Symbol>, names: SymbolNames)
    ensures ScanSymbols(f, a + b, names) == ScanSymbols(ScanSymbols(f, a, names), b, names)
    decreases |b|
  {
    if |b| == 0 {
      assert a + b == a;
    } else {
      assert (a + b)[..|a + b| - 1] == a + b[..|b| - 1];
      ScanSymbolsAppend(f, a, b[..|b| - 1], names);
    }
  }

  /** The section loop's symbol search is one scan over all the symbol
      tables' symbols in order, and the symbol file, once written, lists
      what that scan has found. */
  lemma {:induction false} LoadScansTables(secs: seq<Section>, names: SymbolNames)
    requires LoadSections(secs, names).Ok?
    ensures var st := LoadSections(secs, names).value;
            && st.found == ScanSymbols(Initial.found, TableSymbols(secs), names)
            && (st.symbolFile.Some? <==> exists i :: 0 <= i < |secs| && secs[i].shType == SHT_SYMTAB)
            && (st.symbolFile.Some? ==> st.symbolFile.value == SymbolFileLines(st.found))
  {
    if |secs| > 0 {
      var pre := secs[..|secs| - 1];
      LoadScansTables(pre, names);
      assert forall i :: 0 <= i < |pre| ==> pre[i] == secs[i];
      TableSymbolsLast(secs, names);
    }
  }

  lemma TableSymbolsLast(secs: seq<Section>, names: SymbolNames)
    requires |secs| > 0
    ensures var pre := secs[..|secs| - 1];
            var last := secs[|secs| - 1];
            ScanSymbols(Initial.found, TableSymbols(secs), names)
              == if last.shType == SHT_SYMTAB
                 then ScanSymbols(ScanSymbols(Initial.found, TableSymbols(pre), names), last.symbols, names)
                 else ScanSymbols(Initial.found, TableSymbols(pre), names)
  {
    var pre := secs[..|secs| - 1];
    var last := secs[|secs| - 1];
    if last.shType == SHT_SYMTAB {
      ScanSymbolsAppend(Initial.found, TableSymbols(pre), last.symbols, names);
    } else {
      assert TableSymbols(secs) == TableSymbols(pre) + [] == TableSymbols(pre);
    }
  }

  /** After a successful load, each of start, exit and tohost holds the value
      of the last symbol, across all symbol tables, that sets it, or
      ALL_ONES ("not found") if none does. */
  lemma FoundSymbols(secs: seq<Section>, names: SymbolNames, role: Role)
    requires LoadSections(secs, names).Ok?
    ensures LastSetting(TableSymbols(secs), names, role, ALL_ONES,
                        Get(LoadSections(secs, names).value.found, role))
  {
    LoadScansTables(secs, names);
  }

  /** A reader for the symbol file: each line is a 12-character label, hex
      digits and a newline; a symbol with no line reads as "not found". */
  function ReadSymbolLine(f: Found, line: string): Found
  {
    if |line| < 14 || line[|line| - 1] != '\n' then f
    else
      match Parse(line[12..|line| - 1], 16)
      case None => f
      case Some(v) =>
        if v >= U64 then f
        else if line[..12] == StartLabel then f.(start := v)
        else if line[..12] == ExitLabel then f.(exit := v)
        else if line[..12] == TohostLabel then f.(tohost := v)
        else f
  }

  function ReadSymbolFile(lines: seq<string>): Found
  {
    if |lines| == 0 then Initial.found
    else ReadSymbolLine(ReadSymbolFile(lines[..|lines| - 1]), lines[|lines| - 1])
  }

  lemma ReadLabelledLine(f: Found, tag: string, v: u64)
    requires tag == StartLabel || tag == ExitLabel || tag == TohostLabel
    ensures var g := ReadSymbolLine(f, tag + Show(v, 16) + "\n");
            && (tag == StartLabel ==> g == f.(start := v))
            && (tag == ExitLabel ==> g == f.(exit := v))
            && (tag == TohostLabel ==> g == f.(tohost := v))
  {
    var line := tag + Show(v, 16) + "\n";
    assert line[..12] == tag;
    assert line[12..|line| - 1] == Show(v, 16);
    ParseShow(v, 16);
  }

  /** The symbol file written after a symbol table is searched reads back as
      exactly the addresses found so far. */
  lemma SymbolFileRoundTrip(f: Found)
    ensures ReadSymbolFile(SymbolFileLines(f)) == f
  {
    var f1 := Initial.found.(start := f.start);
    var f2 := f1.(exit := f.exit);
    ReadSymbolFileLine([], Initial.found, StartLabel, f.start);
    assert [] + SymbolLine(StartLabel, f.start) == SymbolLine(StartLabel, f.start);
    ReadSymbolFileLine(SymbolLine(StartLabel, f.start), f1, ExitLabel, f.exit);
    ReadSymbolFileLine(SymbolLine(StartLabel, f.start) + SymbolLine(ExitLabel, f.exit), f2, TohostLabel, f.tohost);
  }

  /** Reading one more symbol line sets the symbol it names. */
  lemma ReadSymbolFileLine(a: seq<string>, g: Found, tag: string, v: u64)
    requires tag == StartLabel || tag == ExitLabel || tag == TohostLabel
    requires ReadSymbolFile(a) == g
    ensures var h := ReadSymbolFile(a + SymbolLine(tag, v));
            && (tag == StartLabel ==> h == (if v == ALL_ONES then g else g.(start := v)))
            && (tag == ExitLabel ==> h == (if v == ALL_ONES then g else g.(exit := v)))
            && (tag == TohostLabel ==> h == (if v == ALL_ONES then g else g.(tohost := v)))
  {
    ReadSymbolsAppend(a, SymbolLine(tag, v), g);
    if v != ALL_ONES {
      ReadLabelledLine(g, tag, v);
    }
  }

  lemma ReadSymbolsAppend(a: seq<string>, b: seq<string>, g: Found)
    requires ReadSymbolFile(a) == g
    requires |b| <= 1
    ensures ReadSymbolFile(a + b) == if |b| == 0 then g else ReadSymbolLine(g, b[0])
  {
    if |b| == 0 {
      assert a + b == a;
    } else {
      assert (a + b)[..|a + b| - 1] == a;
    }
  }

  /** A section whose bytes run past 2^64 is not stopped by the too-large
      check: its last byte wraps to a small address. Here a four-byte section
      at 2^64 - 2 has last byte 1, and loading goes on. */
  lemma WrappingSectionAccepted()
    ensures var s := Section(SHT_PROGBITS, SHF_ALLOC, 0xFFFF_FFFF_FFFF_FFFE, [1, 2, 3, 4], []);
            && IsLoadable(s) && s.addr + |s.data| > U64
            && LastByte(s) == 1
            && LoadSections([s], DefaultNames).Ok?
  {
    var s := Section(SHT_PROGBITS, SHF_ALLOC, 0xFFFF_FFFF_FFFF_FFFE, [1, 2, 3, 4], []);
    assert [s][..0] == [];
  }

  /** The lines of "symbol_table.txt" when the section loop ends, whether it
      runs to the end or stops at a section that is too large: the file is
      rewritten at each symbol table, and stopping leaves the last one written. */
  function SymbolFileLeft(secs: seq<Section>, names: SymbolNames): (r: Option<seq<string>>)
    ensures LoadSections(secs, names).Ok? ==> r == LoadSections(secs, names).value.symbolFile
  {
    if |secs| == 0 then None
    else
      match LoadSections(secs[..|secs| - 1], names)
      case Err(_) => SymbolFileLeft(secs[..|secs| - 1], names)
      case Ok(st) =>
        match ProcessSection(st, secs[|secs| - 1], names)
        case Err(_) => st.symbolFile
        case Ok(st') => st'.symbolFile
  }

  /** Section `i` is loadable and reaches past the buffer, so the loop stops there. */
  predicate StopsAt(secs: seq<Section>, i: nat)
    requires i < |secs|
  {
    IsLoadable(secs[i]) && MAX_MEM_SIZE <= LastByte(secs[i])
  }

  /** `p` is where the section loop ends: the first section that stops it,
      or the number of sections if none does. */
  predicate EndsAt(secs: seq<Section>, p: nat)
  {
    && p <= |secs|
    && (forall i :: 0 <= i < p ==> !StopsAt(secs, i))
    && (p == |secs| || StopsAt(secs, p))
  }

  /** The symbol file left behind is the one of the sections before the
      stopping point, all of which load. */
  lemma {:induction false} SymbolFileAtStop(secs: seq<Section>, names: SymbolNames, p: nat)
    requires EndsAt(secs, p)
    ensures LoadSections(secs[..p], names).Ok?
    ensures SymbolFileLeft(secs, names) == LoadSections(secs[..p], names).value.symbolFile
  {
    LoadFailsIffTooLarge(secs[..p], names);
    forall i | 0 <= i < p
      ensures !(IsLoadable(secs[..p][i]) && MAX_MEM_SIZE <= LastByte(secs[..p][i]))
    {
      assert secs[..p][i] == secs[i] && !StopsAt(secs, i);
    }
    if p == |secs| {
      assert secs[..p] == secs;
    } else {
      var pre := secs[..|secs| - 1];
      assert forall i :: 0 <= i < |pre| ==> pre[i] == secs[i];
      if p < |pre| {
        LoadFailsIffTooLarge(pre, names);
        assert StopsAt(pre, p);
        forall i | 0 <= i < p ensures !StopsAt(pre, i) {
          assert !StopsAt(secs, i);
        }
        SymbolFileAtStop(pre, names, p);
        assert pre[..p] == secs[..p];
      } else {
        assert pre == secs[..p];
      }
    }
  }

  /** The symbol file left behind when loading stops, or runs to the end,
      exists exactly when a symbol table came before the stopping point, and
      lists what the symbol search over those tables found. */
  lemma SymbolFileLeftContents(secs: seq<Section>, names: SymbolNames, p: nat)
    requires EndsAt(secs, p)
    ensures SymbolFileLeft(secs, names).Some? <==> exists i :: 0 <= i < p && secs[i].shType == SHT_SYMTAB
    ensures SymbolFileLeft(secs, names).Some? ==>
              SymbolFileLeft(secs, names).value
                == SymbolFileLines(ScanSymbols(Initial.found, TableSymbols(secs[..p]), names))
  {
    SymbolFileAtStop(secs, names, p);
    LoadScansTables(secs[..p], names);
    assert forall i :: 0 <= i < p ==> secs[..p][i] == secs[i];
  }
}

=== FILE: elf_to_hex.dfy ===
/** `main` of the ELF-to-hex converter: load the ELF file, check that the
    loaded addresses fit the memory window `[base, base + memSize KB)`, and
    write the memory image from `base` to the highest loaded address. */
module ElfToHex {
  import opened Wrappers
  import opened Machine
  import opened ElfLoad
  import opened HexImage

  /** `base_addr + mem_size * 1024` in `uint64_t`. */
  function MaxMemAddr(base: u64, memSizeKb: u64): (r: u64)
    ensures base + memSizeKb * 1024 < U64 ==> r == base + memSizeKb * 1024
    ensures base + memSizeKb * 1024 >= U64 ==> r < base + memSizeKb * 1024 - U64 + 1
  {
    (base + memSizeKb * 1024) % U64
  }

  /** The reasons the converter exits with status 1 after parsing its arguments. */
  datatype ToolError = LoadFailed(cause: LoadError) | OutOfRange(base: u64, maxMemAddr: u64)

  /** What a run leaves behind: "symbol_table.txt", which is written while
      the sections are read and so stays even when the run then fails, and
      either the lines of the hex file or the reason for exiting with status 1. */
  datatype Run = Run(symbolFile: Option<seq<string>>, hex: Result<seq<HexLine>, ToolError>)

  /** The range check of `main`: the lowest loaded address must not be below
      the base, and the highest must lie below the end of the window. */
  predicate InWindow(st: Scan, base: u64, maxMemAddr: u64)
  {
    !(st.minAddr < base || maxMemAddr <= st.maxAddr)
  }

  /** `main` after argument parsing, looking for `_start`, `exit` and `tohost`. */
  function ElfToHex(h: Header, secs: seq<Section>, base: u64, memSizeKb: u64): (r: Run)
    ensures r.hex.Err? && r.hex.error.LoadFailed? <==> LoadElf(h, secs, DefaultNames).Err?
    ensures r.hex.Err? && r.hex.error.LoadFailed? ==> r.hex.error.cause == LoadElf(h, secs, DefaultNames).error
    ensures r.hex.Err? && r.hex.error.OutOfRange? <==>
              && LoadElf(h, secs, DefaultNames).Ok?
              && var st := LoadElf(h, secs, DefaultNames).value.scan;
                 (st.minAddr < base || MaxMemAddr(base, memSizeKb) <= st.maxAddr)
    ensures !HeaderAccepted(h) ==> r.symbolFile.None?
    ensures LoadElf(h, secs, DefaultNames).Ok? ==> r.symbolFile == LoadSections(secs, DefaultNames).value.symbolFile
  {
    var symbolFile := if HeaderAccepted(h) then SymbolFileLeft(secs, DefaultNames) else None;
    match LoadElf(h, secs, DefaultNames)
    case Err(e) => Run(symbolFile, Err(LoadFailed(e)))
    case Ok(loaded) =>
      var st := loaded.scan;
      var maxMemAddr := MaxMemAddr(base, memSizeKb);
      if !InWindow(st, base, maxMemAddr) then Run(symbolFile, Err(OutOfRange(base, maxMemAddr)))
      else Run(symbolFile, Ok(WriteMemHex(st.mem, base, st.maxAddr, maxMemAddr)))
  }

  /** Whatever the outcome, once the header is accepted the symbol file left
      behind exists exactly when a symbol table comes before the section the
      loop stops at (or the end), and lists what the search over those
      tables found: a run that fails for a section that is too large, or for
      addresses outside the window, still leaves it. */
  lemma SymbolFileOfRun(h: Header, secs: seq<Section>, base: u64, memSizeKb: u64, p: nat)
    requires HeaderAccepted(h) && EndsAt(secs, p)
    ensures var r := ElfToHex(h, secs, base, memSizeKb);
            && (r.symbolFile.Some? <==> exists i :: 0 <= i < p && secs[i].shType == SHT_SYMTAB)
            && (r.symbolFile.Some? ==>
                  r.symbolFile.value == SymbolFileLines(ScanSymbols(Initial.found, TableSymbols(secs[..p]), DefaultNames)))
  {
    SymbolFileLeftContents(secs, DefaultNames, p);
  }

  /** A successful run means every byte that a section not running past
      2^64 loads lies inside the memory window. */
  lemma AcceptedBytesInWindow(h: Header, secs: seq<Section>, base: u64, memSizeKb: u64)
    requires ElfToHex(h, secs, base, memSizeKb).hex.Ok?
    ensures forall i, a: nat :: 0 <= i < |secs| && Writes(secs[i], a) && secs[i].addr + |secs[i].data| <= U64 ==>
              base <= a < MaxMemAddr(base, memSizeKb)
  {
    var st := LoadSections(secs, DefaultNames).value;
    AddressBounds(secs, DefaultNames);
    forall i, a: nat | 0 <= i < |secs| && Writes(secs[i], a) && secs[i].addr + |secs[i].data| <= U64
      ensures base <= a < MaxMemAddr(base, memSizeKb)
    {
      assert st.minAddr <= secs[i].addr;
      assert a <= LastByte(secs[i]) <= st.maxAddr;
    }
  }

  /** The window check does not cover a section whose bytes run past 2^64:
      with base 0 and a 16 KB window, the four-byte section at 2^64 - 2 has a
      wrapped last byte of 1, the run succeeds, and the section's first byte
      lies far outside the window. */
  lemma WrappingSectionOutsideWindow(h: Header)
    requires HeaderAccepted(h)
    ensures var s := Section(SHT_PROGBITS, SHF_ALLOC, 0xFFFF_FFFF_FFFF_FFFE, [1, 2, 3, 4], []);
            && ElfToHex(h, [s], 0, 16).hex.Ok?
            && Writes(s, 0xFFFF_FFFF_FFFF_FFFE)
            && MaxMemAddr(0, 16) <= 0xFFFF_FFFF_FFFF_FFFE
  {
    var s := Section(SHT_PROGBITS, SHF_ALLOC, 0xFFFF_FFFF_FFFF_FFFE, [1, 2, 3, 4], []);
    WrappingSectionAccepted();
    var st := LoadSections([s], DefaultNames).value;
    assert [s][..0] == [];
    assert st.minAddr == 0xFFFF_FFFF_FFFF_FFFE && st.maxAddr == 1;
  }

  /** The hex image holds, at the word and position for address `a`
      relative to `base`, the byte `v`. */
  ghost predicate ImageHolds(img: map<nat, seq<byte>>, base: nat, a: nat, v: byte)
    requires base <= a
  {
    (a - base) / 4 in img && |img[(a - base) / 4]| == 4 && img[(a - base) / 4][(a - base) % 4] == v
  }

  /** With a word-aligned base, the written image holds every byte from the
      base up to the highest loaded address, except that address itself
      when it is word-aligned (the writer's end rounding, as written). */
  lemma ImageHoldsMemory(h: Header, secs: seq<Section>, base: u64, memSizeKb: u64, a: nat)
    requires ElfToHex(h, secs, base, memSizeKb).hex.Ok? && base % 4 == 0
    requires var st := LoadSections(secs, DefaultNames).value;
             base <= a <= st.maxAddr && (a < st.maxAddr || st.maxAddr % 4 != 0)
    ensures var st := LoadSections(secs, DefaultNames).value;
            ImageHolds(Image(ElfToHex(h, secs, base, memSizeKb).hex.value), base, a, MemAt(st.mem, a))
  {
    var st := LoadSections(secs, DefaultNames).value;
    var maxMemAddr := MaxMemAddr(base, memSizeKb);
    assert ElfToHex(h, secs, base, memSizeKb).hex.value == WriteMemHex(st.mem, base, st.maxAddr, maxMemAddr);
    BytesWritten(st.mem, base, st.maxAddr, maxMemAddr);
    assert a < EndAddr(st.maxAddr);
    assert ByteHeldAt(Image(WriteMemHex(st.mem, base, st.maxAddr, maxMemAddr)), st.mem, base, a);
  }

  /** End to end: with a word-aligned base, each byte of each loaded section
      that no later section overwrites reaches the hex image, unless it is
      the highest loaded address and that address is word-aligned. */
  lemma SectionBytesInImage(h: Header, secs: seq<Section>, base: u64, memSizeKb: u64, i: nat, a: nat)
    requires ElfToHex(h, secs, base, memSizeKb).hex.Ok? && base % 4 == 0
    requires i < |secs| && Writes(secs[i], a) && secs[i].addr + |secs[i].data| <= U64
    requires forall j :: i < j < |secs| ==> !Writes(secs[j], a)
    requires var st := LoadSections(secs, DefaultNames).value;
             a < st.maxAddr || st.maxAddr % 4 != 0
    ensures base <= a
    ensures ImageHolds(Image(ElfToHex(h, secs, base, memSizeKb).hex.value), base, a, secs[i].data[a - secs[i].addr])
  {
    var st := LoadSections(secs, DefaultNames).value;
    AddressBounds(secs, DefaultNames);
    LoadedBytes(secs, DefaultNames);
    assert st.minAddr <= secs[i].addr;
    assert a <= LastByte(secs[i]) <= st.maxAddr;
    ImageHoldsMemory(h, secs, base, memSizeKb, a);
  }
}

=== FILE: hex_image.dfy ===
/** `write_mem_hex_file`: the memory image in Verilog `$readmemh` format,
    32-bit words, one "@" address line, one line per word from the word
    holding the base address up to (as written) the aligned-up end address,
    and possibly a trailing all-zero word at the top of memory. */
module HexImage {
  import opened Wrappers
  import opened Machine
  import opened Numerals

  /** A line of the hex file, without its trailing comment: an "@" line
      setting the word index, or a data line holding one word's four bytes
      in memory order (address +0 first). */
  datatype HexLine = Origin(index: nat) | Data(bytes: seq<byte>)

  /** `a & ~3` on a uint64. */
  function AlignDown(a: u64): (r: u64)
    ensures r % 4 == 0 && r <= a < r + 4
  {
    a - a % 4
  }

  /** The four bytes of the word at `addr`, in memory order. */
  function WordAt(mem: map<nat, byte>, addr: nat): (r: seq<byte>)
    ensures |r| == 4
    ensures forall j :: 0 <= j < 4 ==> r[j] == MemAt(mem, addr + j)
  {
    [MemAt(mem, addr), MemAt(mem, addr + 1), MemAt(mem, addr + 2), MemAt(mem, addr + 3)]
  }

  /** The number of iterations of `for (addr = a; addr < a2; addr += 4)`. */
  function Iterations(a: nat, a2: nat): nat
  {
    if a < a2 then (a2 - a + 3) / 4 else 0
  }

  /** The data lines of the word loop, from `a` while below `a2`. */
  function DataLines(mem: map<nat, byte>, a: nat, a2: nat): (r: seq<HexLine>)
    ensures |r| == Iterations(a, a2)
    decreases a2 - a
  {
    if a < a2 then [Data(WordAt(mem, a))] + DataLines(mem, a + 4, a2) else []
  }

  /** Line `k` of the word loop holds the word at `a + 4k`. */
  lemma {:induction false} DataLinesAt(mem: map<nat, byte>, a: nat, a2: nat)
    ensures forall k :: 0 <= k < |DataLines(mem, a, a2)| ==> DataLines(mem, a, a2)[k] == Data(WordAt(mem, a + 4 * k))
    decreases a2 - a
  {
    if a < a2 {
      DataLinesAt(mem, a + 4, a2);
      assert forall k :: 1 <= k < |DataLines(mem, a, a2)| ==> a + 4 * k == a + 4 + 4 * (k - 1);
    }
  }

  /** The value of `addr` when the word loop exits. */
  function LoopEnd(a1: nat, a2: nat): nat
  {
    a1 + 4 * Iterations(a1, a2)
  }

  /** The word index of the first "@" line, `(a1 - base) / 4` in uint64. */
  function FirstIndex(base: u64): nat
  {
    Sub64(AlignDown(base), base) / 4
  }

  /** `a2`: the end of the word loop, `addr2 + 3` rounded down to a word. */
  function EndAddr(addr2: u64): (r: u64)
    ensures r % 4 == 0
    ensures addr2 + 3 < U64 ==> addr2 <= r < addr2 + 4 && (r == addr2 <==> addr2 % 4 == 0)
  {
    AlignDown((addr2 + 3) % U64)
  }

  /** The address of the trailing word, `maxAddr - 4` in uint64. */
  function TopWord(maxAddr: u64): u64
  {
    Sub64(maxAddr, 4)
  }

  /** Whether the trailing all-zero word is written. */
  predicate WritesTop(base: u64, addr2: u64, maxAddr: u64)
  {
    LoopEnd(AlignDown(base), EndAddr(addr2)) < TopWord(maxAddr)
  }

  /** The lines written by `write_mem_hex_file (fp, base, addr2, maxAddr)`. */
  function WriteMemHex(mem: map<nat, byte>, base: u64, addr2: u64, maxAddr: u64): (r: seq<HexLine>)
    ensures |r| >= 1 && r[0].Origin?
    ensures Printable(r)
  {
    var words := DataLines(mem, AlignDown(base), EndAddr(addr2));
    var tail := if WritesTop(base, addr2, maxAddr)
                then [Origin(Sub64(TopWord(maxAddr), base) / 4), Data([0, 0, 0, 0])]
                else [];
    DataLinesAt(mem, AlignDown(base), EndAddr(addr2));
    PrintableAppend([Origin(FirstIndex(base))], words, tail);
    [Origin(FirstIndex(base))] + words + tail
  }

  /** Every data line holds one word, so every line can be printed. */
  ghost predicate Printable(lines: seq<HexLine>)
  {
    forall k :: 0 <= k < |lines| && lines[k].Data? ==> |lines[k].bytes| == 4
  }

  lemma PrintableAppend(a: seq<HexLine>, b: seq<HexLine>, c: seq<HexLine>)
    requires Printable(a) && Printable(b) && Printable(c)
    ensures Printable(a + b + c)
  {
    forall k | 0 <= k < |a + b + c| && (a + b + c)[k].Data? ensures |(a + b + c)[k].bytes| == 4 {
      if k < |a| {
        assert (a + b + c)[k] == a[k];
      } else if k < |a| + |b| {
        assert (a + b + c)[k] == b[k - |a|];
      } else {
        assert (a + b + c)[k] == c[k - |a| - |b|];
      }
    }
  }

  // ---- Text of a line

  /** `%02x` of a byte. */
  function Hex2(b: byte): (r: string)
    ensures |r| == 2
  {
    ShowLength(b, 16, 2);
    PadLeft(Show(b, 16), 2)
  }

  lemma Newline(t: string)
    ensures |t + "\n"| == |t| + 1 && (t + "\n")[|t|] == '\n'
    ensures |t| > 0 ==> (t + "\n")[0] == t[0]
  {
  }

  /** A word index below 16^7 has at most seven hex digits, so `%07x`
      prints exactly seven. */
  lemma IndexDigits(i: nat)
    ensures i < 0x1000_0000 ==> |Show(i, 16)| <= 7
  {
    if i < 0x1000_0000 {
      assert Pow(16, 7) == 0x1000_0000 by {
        assert Pow(16, 1) == 16 * Pow(16, 0);
        assert Pow(16, 2) == 16 * Pow(16, 1);
        assert Pow(16, 3) == 16 * Pow(16, 2);
        assert Pow(16, 4) == 16 * Pow(16, 3);
        assert Pow(16, 5) == 16 * Pow(16, 4);
        assert Pow(16, 6) == 16 * Pow(16, 5);
      }
      ShowLength(i, 16, 7);
    }
  }

  /** The printed text of a line (comment left out): "@" and the word index
      as `%07x`, or the word's bytes from address +3 down to +0 as `%02x`. */
  function LineText(l: HexLine): (r: string)
    requires l.Data? ==> |l.bytes| == 4
    ensures |r| >= 9 && r[|r| - 1] == '\n'
    ensures l.Data? ==> |r| == 9
    ensures l.Origin? ==> r[0] == '@' && (l.index < 0x1000_0000 ==> |r| == 9)
  {
    match l
    case Origin(i) =>
      var digits := PadLeft(Show(i, 16), 7);
      IndexDigits(i);
      var t := "@" + digits;
      assert |t| == 1 + |digits| && t[0] == '@';
      Newline(t);
      t + "\n"
    case Data(bs) =>
      var digits := Hex2(bs[3]) + Hex2(bs[2]) + Hex2(bs[1]) + Hex2(bs[0]);
      assert |digits| == 8;
      Newline(digits);
      digits + "\n"
  }


  /** Reads a two-digit hex byte. */
  function ReadByte(s: string): Option<byte>
  {
    match Parse(s, 16)
    case Some(v) => if |s| == 2 && v < 256 then Some(v) else None
    case None => None
  }

  /** Reads one line of the hex file (without comments). */
  function ReadLine(s: string): Option<HexLine>
  {
    if |s| < 2 || s[|s| - 1] != '\n' then None
    else if s[0] == '@' then
      match Parse(s[1..|s| - 1], 16)
      case Some(i) => Some(Origin(i))
      case None => None
    else if |s| != 9 then None
    else
      var b3, b2, b1, b0 := ReadByte(s[0..2]), ReadByte(s[2..4]), ReadByte(s[4..6]), ReadByte(s[6..8]);
      if b3.Some? && b2.Some? && b1.Some? && b0.Some? then Some(Data([b0.value, b1.value, b2.value, b3.value]))
      else None
  }

  lemma ReadHex2(b: byte)
    ensures ReadByte(Hex2(b)) == Some(b)
  {
    ParsePadded(b, 16, 2);
  }

  lemma ReadOriginLine(i: nat)
    ensures ReadLine(LineText(Origin(i))) == Some(Origin(i))
  {
    var s := LineText(Origin(i));
    assert s[0] == '@' && s[|s| - 1] == '\n';
    assert s[1..|s| - 1] == PadLeft(Show(i, 16), 7);
    ParsePadded(i, 16, 7);
  }

  lemma ReadDataLine(bs: seq<byte>)
    requires |bs| == 4
    ensures ReadLine(LineText(Data(bs))) == Some(Data(bs))
  {
    Hex2Digit(bs[3]);
    ReadHex2(bs[0]);
    ReadHex2(bs[1]);
    ReadHex2(bs[2]);
    ReadHex2(bs[3]);
    var t := Hex2(bs[3]) + Hex2(bs[2]) + Hex2(bs[1]) + Hex2(bs[0]) + "\n";
    assert LineText(Data(bs)) == t;
    ReadWordText(Hex2(bs[3]), Hex2(bs[2]), Hex2(bs[1]), Hex2(bs[0]), bs[3], bs[2], bs[1], bs[0]);
    WordElements(bs);
  }

  lemma WordElements(bs: seq<byte>)
    requires |bs| == 4
    ensures [bs[0], bs[1], bs[2], bs[3]] == bs
  {
  }

  lemma ReadWordText(w: string, x: string, y: string, z: string, b3: byte, b2: byte, b1: byte, b0: byte)
    requires |w| == 2 && |x| == 2 && |y| == 2 && |z| == 2 && w[0] != '@'
    requires ReadByte(w) == Some(b3) && ReadByte(x) == Some(b2)
    requires ReadByte(y) == Some(b1) && ReadByte(z) == Some(b0)
    ensures ReadLine(w + x + y + z + "\n") == Some(Data([b0, b1, b2, b3]))
  {
    Pairs(w, x, y, z);
    ReadWordLine(w + x + y + z + "\n", b3, b2, b1, b0);
  }

  lemma ReadWordLine(s: string, b3: byte, b2: byte, b1: byte, b0: byte)
    requires |s| == 9 && s[8] == '\n' && s[0] != '@'
    requires ReadByte(s[0..2]) == Some(b3) && ReadByte(s[2..4]) == Some(b2)
    requires ReadByte(s[4..6]) == Some(b1) && ReadByte(s[6..8]) == Some(b0)
    ensures ReadLine(s) == Some(Data([b0, b1, b2, b3]))
  {
  }

  lemma Pairs(w: string, x: string, y: string, z: string)
    requires |w| == 2 && |x| == 2 && |y| == 2 && |z| == 2
    ensures var s := w + x + y + z + "\n";
            && |s| == 9 && s[8] == '\n' && s[0] == w[0]
            && s[0..2] == w && s[2..4] == x && s[4..6] == y && s[6..8] == z
  {
  }

  lemma Hex2Digit(b: byte)
    ensures Hex2(b)[0] != '@'
  {
    var d := Show(b, 16);
    assert DigitValue(d[0]) < 16;
  }

  /** Every line the writer can produce reads back as itself. */
  lemma LineRoundTrip(l: HexLine)
    requires l.Data? ==> |l.bytes| == 4
    ensures ReadLine(LineText(l)) == Some(l)
  {
    match l
    case Origin(i) => ReadOriginLine(i);
    case Data(bs) => ReadDataLine(bs);
  }

  // ---- Meaning of a hex file

  /** The state of a `$readmemh` reader: the current word index and the
      words loaded so far. */
  datatype Reader = Reader(ptr: nat, words: map<nat, seq<byte>>)

  function Feed(r: Reader, l: HexLine): Reader
  {
    match l
    case Origin(i) => Reader(i, r.words)
    case Data(bs) => Reader(r.ptr + 1, r.words[r.ptr := bs])
  }

  function FeedAll(r: Reader, lines: seq<HexLine>): Reader
    decreases |lines|
  {
    if |lines| == 0 then r else FeedAll(Feed(r, lines[0]), lines[1..])
  }

  /** The words a `$readmemh` reader loads from the lines, by word index. */
  function Image(lines: seq<HexLine>): map<nat, seq<byte>>
  {
    FeedAll(Reader(0, map[]), lines).words
  }

  lemma {:induction false} FeedAllAppend(r: Reader, a: seq<HexLine>, b: seq<HexLine>)
    ensures FeedAll(r, a + b) == FeedAll(FeedAll(r, a), b)
    decreases |a|
  {
    if |a| == 0 {
      assert a + b == b;
    } else {
      assert (a + b)[1..] == a[1..] + b;
      FeedAllAppend(Feed(r, a[0]), a[1..], b);
    }
  }

  /** `out` is `r` after reading `c` words starting at address `a`: they
      sit at consecutive indices from the current one, and the other indices
      are left alone. */
  ghost predicate LoadedWords(r: Reader, out: Reader, mem: map<nat, byte>, a: nat, c: nat)
  {
    && out.ptr == r.ptr + c
    && LoadedDomain(r, out, c)
    && LoadedNew(r, out, mem, a, c)
    && LoadedOld(r, out, c)
  }

  ghost predicate LoadedDomain(r: Reader, out: Reader, c: nat)
  {
    forall j :: j in out.words <==> j in r.words || r.ptr <= j < r.ptr + c
  }

  ghost predicate LoadedNew(r: Reader, out: Reader, mem: map<nat, byte>, a: nat, c: nat)
  {
    forall j :: r.ptr <= j < r.ptr + c ==> j in out.words && out.words[j] == WordAt(mem, a + 4 * (j - r.ptr))
  }

  ghost predicate LoadedOld(r: Reader, out: Reader, c: nat)
  {
    forall j :: j in r.words && !(r.ptr <= j < r.ptr + c) ==> j in out.words && out.words[j] == r.words[j]
  }

  /** Reading the word loop's lines stores the words from `a` on. */
  lemma {:induction false} FeedData(r: Reader, mem: map<nat, byte>, a: nat, a2: nat)
    ensures LoadedWords(r, FeedAll(r, DataLines(mem, a, a2)), mem, a, Iterations(a, a2))
    decreases a2 - a
  {
    if a < a2 {
      var lines := DataLines(mem, a, a2);
      var next := Reader(r.ptr + 1, r.words[r.ptr := WordAt(mem, a)]);
      var rest := DataLines(mem, a + 4, a2);
      assert lines == [Data(WordAt(mem, a))] + rest;
      assert lines[1..] == rest;
      assert FeedAll(r, lines) == FeedAll(next, rest);
      IterationsStep(a, a2);
      FeedData(next, mem, a + 4, a2);
      LoadedWordsStep(r, FeedAll(next, rest), mem, a, Iterations(a, a2));
    }
  }

  /** Reading one more word in front. */
  lemma LoadedWordsStep(r: Reader, out: Reader, mem: map<nat, byte>, a: nat, c: nat)
    requires c >= 1
    requires LoadedWords(Reader(r.ptr + 1, r.words[r.ptr := WordAt(mem, a)]), out, mem, a + 4, c - 1)
    ensures LoadedWords(r, out, mem, a, c)
  {
    var next := Reader(r.ptr + 1, r.words[r.ptr := WordAt(mem, a)]);
    StepDomain(r, next, out, c, WordAt(mem, a));
    StepNewWords(r, next, out, mem, a, c);
    StepOldWords(r, next, out, c, WordAt(mem, a));
  }

  lemma StepDomain(r: Reader, next: Reader, out: Reader, c: nat, w: seq<byte>)
    requires c >= 1 && next == Reader(r.ptr + 1, r.words[r.ptr := w])
    requires LoadedDomain(next, out, c - 1)
    ensures LoadedDomain(r, out, c)
  {
  }

  lemma StepNewWords(r: Reader, next: Reader, out: Reader, mem: map<nat, byte>, a: nat, c: nat)
    requires c >= 1 && next == Reader(r.ptr + 1, r.words[r.ptr := WordAt(mem, a)])
    requires LoadedNew(next, out, mem, a + 4, c - 1) && LoadedOld(next, out, c - 1)
    ensures LoadedNew(r, out, mem, a, c)
  {
    forall j | r.ptr <= j < r.ptr + c
      ensures j in out.words && out.words[j] == WordAt(mem, a + 4 * (j - r.ptr))
    {
      if j == r.ptr {
        assert j in next.words && !(next.ptr <= j < next.ptr + (c - 1));
      } else {
        assert a + 4 + 4 * (j - next.ptr) == a + 4 * (j - r.ptr);
      }
    }
  }

  lemma StepOldWords(r: Reader, next: Reader, out: Reader, c: nat, w: seq<byte>)
    requires c >= 1 && next == Reader(r.ptr + 1, r.words[r.ptr := w])
    requires LoadedOld(next, out, c - 1)
    ensures LoadedOld(r, out, c)
  {
    forall j | j in r.words && !(r.ptr <= j < r.ptr + c)
      ensures j in out.words && out.words[j] == r.words[j]
    {
      assert j in next.words && next.words[j] == r.words[j];
    }
  }

  lemma IterationsStep(a: nat, a2: nat)
    requires a < a2
    ensures Iterations(a, a2) == 1 + Iterations(a + 4, a2)
  {
  }

  /** The loop over aligned addresses ends exactly at `a2`. */
  lemma LoopEndAligned(a1: nat, a2: nat)
    requires a1 % 4 == 0 && a2 % 4 == 0 && a1 < a2
    ensures LoopEnd(a1, a2) == a2
  {
  }

  /** `img` holds `c` words read from address `a1` on at indices from `o`,
      and, if `top`, the zero word at index `t`, which replaces a data word
      at the same index. */
  ghost predicate ImageShape(img: map<nat, seq<byte>>, mem: map<nat, byte>, a1: nat,
                             o: nat, c: nat, top: bool, t: nat)
  {
    && (forall j :: j in img <==> o <= j < o + c || (top && j == t))
    && ImageWords(img, mem, a1, o, c, top, t)
    && (top ==> t in img && img[t] == [0, 0, 0, 0])
  }

  /** The data words of an `ImageShape`. */
  ghost predicate ImageWords(img: map<nat, seq<byte>>, mem: map<nat, byte>, a1: nat,
                             o: nat, c: nat, top: bool, t: nat)
  {
    forall j :: o <= j < o + c && !(top && j == t) ==> j in img && img[j] == WordAt(mem, a1 + 4 * (j - o))
  }

  /** What a `$readmemh` reader loads from the writer's output: the words
      from `a1` on at consecutive indices from the first "@" index, and the
      zero word at the index of `maxAddr - 4` if the trailing word is
      written. */
  lemma WrittenImage(mem: map<nat, byte>, base: u64, addr2: u64, maxAddr: u64)
    ensures ImageShape(Image(WriteMemHex(mem, base, addr2, maxAddr)), mem, AlignDown(base),
                       FirstIndex(base), Iterations(AlignDown(base), EndAddr(addr2)),
                       WritesTop(base, addr2, maxAddr), Sub64(TopWord(maxAddr), base) / 4)
  {
    var o, c := FirstIndex(base), Iterations(AlignDown(base), EndAddr(addr2));
    var t := Sub64(TopWord(maxAddr), base) / 4;
    var top := WritesTop(base, addr2, maxAddr);
    var r1 := FeedAll(Reader(o, map[]), DataLines(mem, AlignDown(base), EndAddr(addr2)));
    WriterReader(mem, base, addr2, maxAddr);
    FeedData(Reader(o, map[]), mem, AlignDown(base), EndAddr(addr2));
    ImageOfLoaded(r1, Image(WriteMemHex(mem, base, addr2, maxAddr)), mem, AlignDown(base), o, c, top, t);
  }

  /** The reader's state after the writer's lines, in three phases. */
  lemma WriterReader(mem: map<nat, byte>, base: u64, addr2: u64, maxAddr: u64)
    ensures var o := FirstIndex(base);
            var t := Sub64(TopWord(maxAddr), base) / 4;
            var r1 := FeedAll(Reader(o, map[]), DataLines(mem, AlignDown(base), EndAddr(addr2)));
            Image(WriteMemHex(mem, base, addr2, maxAddr))
              == if WritesTop(base, addr2, maxAddr) then r1.words[t := [0, 0, 0, 0]] else r1.words
  {
    var o := FirstIndex(base);
    var t := Sub64(TopWord(maxAddr), base) / 4;
    var head := [Origin(o)];
    var data := DataLines(mem, AlignDown(base), EndAddr(addr2));
    var tail := if WritesTop(base, addr2, maxAddr) then [Origin(t), Data([0, 0, 0, 0])] else [];
    FeedAllAppend(Reader(0, map[]), head + data, tail);
    FeedAllAppend(Reader(0, map[]), head, data);
    assert FeedAll(Reader(0, map[]), head) == Reader(o, map[]);
    var r1 := FeedAll(Reader(o, map[]), data);
    if WritesTop(base, addr2, maxAddr) {
      FeedPair(r1, Origin(t), Data([0, 0, 0, 0]));
    } else {
      assert FeedAll(r1, tail) == r1;
    }
  }

  lemma FeedPair(r: Reader, l1: HexLine, l2: HexLine)
    ensures FeedAll(r, [l1, l2]) == Feed(Feed(r, l1), l2)
  {
    assert [l1, l2][1..] == [l2];
    assert FeedAll(Feed(r, l1), [l2]) == FeedAll(Feed(Feed(r, l1), l2), []);
  }

  lemma ImageOfLoaded(r1: Reader, img: map<nat, seq<byte>>, mem: map<nat, byte>, a1: nat,
                      o: nat, c: nat, top: bool, t: nat)
    requires LoadedWords(Reader(o, map[]), r1, mem, a1, c)
    requires img == if top then r1.words[t := [0, 0, 0, 0]] else r1.words
    ensures ImageShape(img, mem, a1, o, c, top, t)
  {
  }

  /** Every byte address `b` in `lo .. hi-1` is in the image of memory
      based at `base`: word `(b - base) / 4`, position `(b - base) % 4`. */
  ghost predicate HoldsBytes(img: map<nat, seq<byte>>, mem: map<nat, byte>, base: nat, lo: nat, hi: nat)
  {
    forall b: nat :: base <= lo <= b < hi ==> ByteHeldAt(img, mem, base, b)
  }

  /** Byte address `b` is in the image at word `(b - base) / 4`, position `(b - base) % 4`. */
  ghost predicate ByteHeldAt(img: map<nat, seq<byte>>, mem: map<nat, byte>, base: nat, b: nat)
  {
    base <= b && (b - base) / 4 in img && |img[(b - base) / 4]| == 4
    && img[(b - base) / 4][(b - base) % 4] == MemAt(mem, b)
  }

  /** With a word-aligned base and no wrap-around of `addr2 + 3`, every byte
      from `base` up to `a2` is in the image, at word `(b - base) / 4`,
      position `(b - base) % 4`. */
  lemma BytesWritten(mem: map<nat, byte>, base: u64, addr2: u64, maxAddr: u64)
    requires base % 4 == 0 && addr2 + 3 < U64
    ensures HoldsBytes(Image(WriteMemHex(mem, base, addr2, maxAddr)), mem, base, base, EndAddr(addr2))
  {
    var img := Image(WriteMemHex(mem, base, addr2, maxAddr));
    var a2 := EndAddr(addr2);
    var top := WritesTop(base, addr2, maxAddr);
    var t := Sub64(TopWord(maxAddr), base) / 4;
    WrittenImage(mem, base, addr2, maxAddr);
    assert AlignDown(base) == base && FirstIndex(base) == 0;
    if base < a2 {
      LoopEndAligned(base, a2);
      if top {
        assert TopWord(maxAddr) > a2;
        assert t >= (a2 - base) / 4;
      }
      BytesOfShape(img, mem, base, a2, top, t);
    }
  }

  lemma BytesOfShape(img: map<nat, seq<byte>>, mem: map<nat, byte>, base: nat, a2: nat, top: bool, t: nat)
    requires base % 4 == 0 && a2 % 4 == 0 && base < a2
    requires ImageWords(img, mem, base, 0, Iterations(base, a2), top, t)
    requires top ==> t >= (a2 - base) / 4
    ensures HoldsBytes(img, mem, base, base, a2)
  {
    forall b: nat | base <= b < a2
      ensures ByteHeldAt(img, mem, base, b)
    {
      ByteHeld(img, mem, base, a2, top, t, b);
    }
  }

  /** One byte of `BytesOfShape`. */
  lemma ByteHeld(img: map<nat, seq<byte>>, mem: map<nat, byte>, base: nat, a2: nat, top: bool, t: nat, b: nat)
    requires base % 4 == 0 && a2 % 4 == 0 && base <= b < a2
    requires ImageWords(img, mem, base, 0, Iterations(base, a2), top, t)
    requires top ==> t >= (a2 - base) / 4
    ensures ByteHeldAt(img, mem, base, b)
  {
    var j, p := (b - base) / 4, (b - base) % 4;
    WordOfByte(base, a2, b);
    assert 0 <= j < Iterations(base, a2) && !(top && j == t);
    ByteOfWord(img[j], mem, base + 4 * j, p);
  }

  lemma ByteOfWord(w: seq<byte>, mem: map<nat, byte>, addr: nat, p: nat)
    requires w == WordAt(mem, addr) && p < 4
    ensures |w| == 4 && w[p] == MemAt(mem, addr + p)
  {
  }

  /** Byte `b` of an aligned range sits at position `(b - base) % 4` of word
      `(b - base) / 4`, which is one of the loop's words. */
  lemma WordOfByte(base: nat, a2: nat, b: nat)
    requires base % 4 == 0 && a2 % 4 == 0 && base <= b < a2
    ensures Iterations(base, a2) == (a2 - base) / 4
    ensures (b - base) / 4 < (a2 - base) / 4
    ensures base + 4 * ((b - base) / 4) + (b - base) % 4 == b && (b - base) % 4 < 4
  {
  }

  /** As written, when `addr2` is itself word-aligned the word holding it is
      not among the data lines: the image has no word there, or only the
      trailing zero word. A non-zero byte at `addr2` is lost. */
  lemma AlignedEndDropped(mem: map<nat, byte>, base: u64, addr2: u64, maxAddr: u64)
    requires base % 4 == 0 && addr2 % 4 == 0 && base <= addr2 && addr2 + 3 < U64
    ensures var img := Image(WriteMemHex(mem, base, addr2, maxAddr));
            var j := (addr2 - base) / 4;
            j !in img || img[j] == [0, 0, 0, 0]
  {
    WrittenImage(mem, base, addr2, maxAddr);
    assert AlignDown(base) == base && FirstIndex(base) == 0;
    assert EndAddr(addr2) == addr2;
  }

  /** As written, the word just below `maxAddr` is in the image unless the
      word loop stops exactly there: the trailing-word test is a strict `<`,
      so that case writes neither a data word nor the trailing word. */
  lemma TopWordPresence(mem: map<nat, byte>, base: u64, addr2: u64, maxAddr: u64)
    requires base % 4 == 0 && maxAddr % 4 == 0 && base + 4 <= maxAddr && addr2 + 3 < U64
    ensures var img := Image(WriteMemHex(mem, base, addr2, maxAddr));
            (maxAddr - 4 - base) / 4 in img <==> LoopEnd(base, EndAddr(addr2)) != maxAddr - 4
  {
    WrittenImage(mem, base, addr2, maxAddr);
    var a2 := EndAddr(addr2);
    assert AlignDown(base) == base && FirstIndex(base) == 0;
    assert TopWord(maxAddr) == maxAddr - 4;
    if base < a2 {
      LoopEndAligned(base, a2);
    }
  }
}

=== FILE: isa_test.dfy ===
/** `do_isa_test` of the regression runner, without the processes it starts:
    the two command lines, the PASS/FAIL classification of the simulator's
    output, and the names of the log and trace files. The outputs of the two
    external programs, and whether the simulator left a trace file behind,
    are parameters. */
module IsaTest {
  import opened Wrappers
  import opened Strings
  import opened Numerals

  /** The runner's settings that a test run reads. */
  datatype Config = Config(simPath: string, elfToHexExe: string, logsPath: string, verbosity: int)

  /** The memory-image file every conversion writes into the worker's directory. */
  const MemHexName: string := "Mem.hex"

  /** The scratch directory of worker `w`: "./worker_" and the decimal
      numeral of `w`, which reads back as `w`. */
  function WorkerDir(w: nat): (r: string)
    ensures |r| > 9 && r[..9] == "./worker_" && Parse(r[9..], 10) == Some(w)
  {
    var digits := Show(w, 10);
    ParseShow(w, 10);
    assert ("./worker_" + digits)[9..] == digits;
    "./worker_" + digits
  }

  /** The converter command line: the ELF file in, "Mem.hex" out, always in
      the worker's directory. */
  function ConverterCommand(cfg: Config, fullName: string): seq<string>
  {
    [cfg.elfToHexExe, fullName, MemHexName]
  }

  function JtagArg(w: nat): string
  {
    "+jtag_port=666" + Show(w, 10)
  }

  function VpiArg(w: nat): string
  {
    "+vpi_port=777" + Show(w, 10)
  }

  /** The simulator command line of worker `w`: the simulator, "+tohost", the
      two port arguments, and "+v1" or "+v2" for verbosity 1 or 2 only. */
  function SimulatorCommand(cfg: Config, w: nat): (cmd: seq<string>)
    ensures |cmd| == if cfg.verbosity in {1, 2} then 5 else 4
    ensures cmd[..4] == [cfg.simPath, "+tohost", JtagArg(w), VpiArg(w)]
    ensures cfg.verbosity == 1 ==> cmd[4] == "+v1"
    ensures cfg.verbosity == 2 ==> cmd[4] == "+v2"
  {
    [cfg.simPath, "+tohost", JtagArg(w), VpiArg(w)]
      + (if cfg.verbosity == 1 then ["+v1"] else if cfg.verbosity == 2 then ["+v2"] else [])
  }

  /** Workers with different numbers get different port arguments and
      different scratch directories. */
  lemma WorkerResourcesDistinct(cfg: Config, w: nat, v: nat)
    requires w != v
    ensures SimulatorCommand(cfg, w)[2] != SimulatorCommand(cfg, v)[2]
    ensures SimulatorCommand(cfg, w)[3] != SimulatorCommand(cfg, v)[3]
    ensures WorkerDir(w) != WorkerDir(v)
  {
    if Show(w, 10) == Show(v, 10) {
      ShowInjective(w, v, 10);
    }
    PrefixedDistinct("+jtag_port=666", Show(w, 10), Show(v, 10));
    PrefixedDistinct("+vpi_port=777", Show(w, 10), Show(v, 10));
    PrefixedDistinct("./worker_", Show(w, 10), Show(v, 10));
  }

  lemma PrefixedDistinct(p: string, x: string, y: string)
    requires x != y
    ensures p + x != p + y
  {
    assert (p + x)[|p|..] == x;
    assert (p + y)[|p|..] == y;
  }

  lemma SuffixedDistinct(x: string, y: string, s: string)
    requires x != y
    ensures x + s != y + s
  {
    if |x| == |y| {
      assert (x + s)[..|x|] == x;
      assert (y + s)[..|y|] == y;
    }
  }

  /** The JTAG port number worker `w` asks for: "666" followed by the decimal
      digits of `w`. Only workers 0..9 get a valid TCP port (at most 65535);
      from worker 10 on, the number has five digits and exceeds it. */
  lemma JtagPortNumber(w: nat)
    ensures Parse(JtagArg(w)[11..], 10).Some?
    ensures w < 10 ==> Parse(JtagArg(w)[11..], 10) == Some(6660 + w)
    ensures w >= 10 ==> Parse(JtagArg(w)[11..], 10).value > 65535
  {
    assert JtagArg(w)[11..] == "666" + Show(w, 10);
    assert "666"[..2] == "66" && "66"[..1] == "6" && "6"[..0] == [];
    assert Value("666", 10) == 666;
    PortValue("666", 666, w);
  }

  /** The VPI port number: "777" followed by the digits of `w`; valid for
      workers 0..9 only, like the JTAG port. */
  lemma VpiPortNumber(w: nat)
    ensures Parse(VpiArg(w)[10..], 10).Some?
    ensures w < 10 ==> Parse(VpiArg(w)[10..], 10) == Some(7770 + w)
    ensures w >= 10 ==> Parse(VpiArg(w)[10..], 10).value > 65535
  {
    assert VpiArg(w)[10..] == "777" + Show(w, 10);
    assert "777"[..2] == "77" && "77"[..1] == "7" && "7"[..0] == [];
    assert Value("777", 10) == 777;
    PortValue("777", 777, w);
  }

  lemma PortValue(prefix: string, pv: nat, w: nat)
    requires IsDigits(prefix, 10) && Value(prefix, 10) == pv && 666 <= pv
    ensures Parse(prefix + Show(w, 10), 10).Some?
    ensures w < 10 ==> Parse(prefix + Show(w, 10), 10) == Some(pv * 10 + w)
    ensures w >= 10 ==> Parse(prefix + Show(w, 10), 10).value > 65535
  {
    var digits := Show(w, 10);
    assert IsDigits(prefix + digits, 10);
    ValueAppend(prefix, digits, 10);
    ValueShow(w, 10);
    var p := Pow(10, |digits|);
    assert Value(prefix + digits, 10) == pv * p + w;
    if w < 10 {
      assert p == 10 by { assert |digits| == 1; assert Pow(10, 1) == 10 * Pow(10, 0); }
    } else {
      PowAtLeast(|digits|);
      MulMono(pv, p);
    }
  }

  lemma MulMono(pv: nat, p: nat)
    requires 666 <= pv && 100 <= p
    ensures pv * p >= 66600
  {
  }

  lemma {:induction false} PowAtLeast(e: nat)
    requires e >= 2
    ensures Pow(10, e) >= 100
  {
    if e > 2 {
      PowAtLeast(e - 1);
    } else {
      assert Pow(10, 2) == 10 * Pow(10, 1) == 10 * (10 * Pow(10, 0));
    }
  }

  /** The classification: a test passes iff the simulator's output contains
      "PASS", upper case, anywhere. The exit code is not looked at. */
  function Passed(simOutput: string): (r: bool)
    ensures r <==> exists i: nat :: OccursAt(simOutput, "PASS", i)
  {
    Contains(simOutput, "PASS")
  }

  /** The subdirectory of the logs directory a test's log goes to. */
  function Verdict(passed: bool): string
  {
    if passed then "pass" else "fail"
  }

  /** `os.path.join (logs_path, "pass" or "fail", basename + ".log")`: a log
      is named `<basename>.log`, inside the "pass" or "fail" directory under
      the logs directory according to the verdict. */
  function LogPath(logsPath: string, passed: bool, basename: string): (r: string)
    ensures '/' !in basename ==> r == JoinPrefix(logsPath) + Verdict(passed) + "/" + basename + ".log"
    ensures '/' !in basename ==> Basename(r) == basename + ".log"
  {
    var r := Join(Join(logsPath, Verdict(passed)), basename + ".log");
    if '/' in basename then r
    else
      JoinNested(logsPath, Verdict(passed), basename + ".log");
      AppendAssoc(JoinPrefix(logsPath) + Verdict(passed) + "/", basename, ".log");
      r
  }

  /** `log_filename.rsplit('.', 1)[0] + ".trace_data"`: everything before the
      last '.' of the log path (all of it if there is none), then ".trace_data". */
  function TracePath(logPath: string): (r: string)
    ensures |r| >= 11 && r[|r| - 11..] == ".trace_data"
    ensures |r| - 11 <= |logPath| && r[..|r| - 11] == logPath[..|r| - 11]
    ensures '.' in logPath ==> |r| - 11 < |logPath| && logPath[|r| - 11] == '.' && '.' !in logPath[|r| - 10..]
    ensures '.' !in logPath ==> |r| - 11 == |logPath|
  {
    var stem := BeforeLastDot(logPath);
    assert (stem + ".trace_data")[..|stem|] == stem;
    stem + ".trace_data"
  }

  /** Passing and failing logs never share a name, and tests with different
      basenames never share a log. Tests in different directories with the
      same basename do share one. */
  lemma LogPathsDistinct(logsPath: string, p: bool, q: bool, b: string, c: string)
    requires '/' !in b && '/' !in c
    requires p != q || b != c
    ensures LogPath(logsPath, p, b) != LogPath(logsPath, q, c)
  {
    var pre := JoinPrefix(logsPath);
    var x := LogPath(logsPath, p, b);
    var y := LogPath(logsPath, q, c);
    if p != q {
      assert x[|pre|] != y[|pre|];
    } else {
      var z := pre + Verdict(p) + "/";
      assert x == z + (b + ".log") && y == z + (c + ".log");
      SuffixedDistinct(b, c, ".log");
      PrefixedDistinct(z, b + ".log", c + ".log");
    }
  }

  /** The trace file sits next to the log and is named `<basename>.trace_data`. */
  lemma TraceNextToLog(logsPath: string, passed: bool, basename: string)
    requires '/' !in basename
    ensures TracePath(LogPath(logsPath, passed, basename))
              == JoinPrefix(logsPath) + Verdict(passed) + "/" + basename + ".trace_data"
  {
    var d := JoinPrefix(logsPath) + Verdict(passed) + "/" + basename;
    AppendAssoc(d, ".", "log");
    assert "." + "log" == ".log";
    BeforeLastDotOfExtension(d, "log");
  }

  /** What one test does and leaves behind: the two command lines it runs,
      its verdict, its log file and its contents, and the trace file if the
      simulator wrote one. */
  datatype TestOutcome = TestOutcome(converterCommand: seq<string>, simulatorCommand: seq<string>,
                                     passed: bool, logPath: string, logText: string, tracePath: Option<string>)

  /** One test: the verdict is read from the simulator's output alone (a
      failed conversion is not noticed), the log holds the converter's output
      followed by the simulator's, and a trace file is kept only if one was
      produced. */
  function RunIsaTest(cfg: Config, w: nat, fullName: string, converterOutput: string,
                      simOutput: string, traceProduced: bool): (r: TestOutcome)
    ensures r.converterCommand == [cfg.elfToHexExe, fullName, "Mem.hex"]
    ensures r.simulatorCommand == SimulatorCommand(cfg, w)
    ensures r.passed <==> Contains(simOutput, "PASS")
    ensures r.logText == converterOutput + simOutput
    ensures r.tracePath.Some? <==> traceProduced
    ensures r.logPath == JoinPrefix(cfg.logsPath) + Verdict(r.passed) + "/" + Basename(fullName) + ".log"
    ensures Basename(r.logPath) == Basename(fullName) + ".log"
    ensures r.tracePath.Some? ==>
              r.tracePath.value == JoinPrefix(cfg.logsPath) + Verdict(r.passed) + "/" + Basename(fullName) + ".trace_data"
  {
    var basename := Basename(fullName);
    var passed := Passed(simOutput);
    var log := LogPath(cfg.logsPath, passed, basename);
    TraceNextToLog(cfg.logsPath, passed, basename);
    TestOutcome(ConverterCommand(cfg, fullName), SimulatorCommand(cfg, w), passed, log,
                converterOutput + simOutput, if traceProduced then Some(TracePath(log)) else None)
  }
}

=== FILE: machine.dfy ===
/** Fixed-width quantities of the ELF converter: 64-bit unsigned words, bytes,
    and the zero-initialised memory buffer. */
module Machine {

  /** 2^64: the modulus of C's `uint64_t` arithmetic. */
  const U64: nat := 0x1_0000_0000_0000_0000

  type u64 = x: nat | x < 0x1_0000_0000_0000_0000

  type byte = x: nat | x < 256

  /** The all-ones word, used as "not found" and as the initial minimum address. */
  const ALL_ONES: u64 := 0xFFFF_FFFF_FFFF_FFFF

  /** `a - b` in `uint64_t`: wraps around below zero. */
  function Sub64(a: u64, b: u64): (r: u64)
    ensures a >= b ==> r == a - b
    ensures a < b ==> r == U64 + a - b
  {
    (a - b) % U64
  }

  /** The memory buffer is zeroed before loading (`bzero`), so a byte that
      was never written reads as 0. */
  function MemAt(mem: map<nat, byte>, a: nat): byte
  {
    if a in mem then mem[a] else 0
  }
}

=== FILE: numerals.dfy ===
/** Unsigned numerals as the two programs print them: Python's `str ()` of a
    non-negative integer (base 10) and C's `%x` family (base 16, lower case,
    optionally zero-padded to a width). */
module Numerals {
  import opened Wrappers

  /** The bases in use: 10 and 16 (any base from 2 to 16 works the same way). */
  type Base = b: nat | 2 <= b <= 16 witness 10

  /** The digit character of `d`: '0'..'9', then 'a'..'f'. */
  function DigitChar(d: nat): char
    requires d < 16
  {
    if d < 10 then ('0' as int + d) as char else ('a' as int + d - 10) as char
  }

  /** The value of a digit character; 16 for any other character. */
  function DigitValue(c: char): nat
  {
    if '0' <= c <= '9' then c as int - '0' as int
    else if 'a' <= c <= 'f' then c as int - 'a' as int + 10
    else 16
  }

  predicate IsDigits(s: string, base: Base)
  {
    forall i :: 0 <= i < |s| ==> DigitValue(s[i]) < base
  }

  /** The numeral of `n` with no leading zeros ("0" for zero). */
  function Show(n: nat, base: Base): (r: string)
    ensures |r| >= 1 && IsDigits(r, base)
    ensures |r| == 1 <==> n < base
    decreases n
  {
    if n < base then [DigitChar(n)]
    else Show(n / base, base) + [DigitChar(n % base)]
  }

  /** The value denoted by a string of digits, most significant first. */
  function Value(s: string, base: Base): nat
  {
    if |s| == 0 then 0
    else Value(s[..|s| - 1], base) * base + DigitValue(s[|s| - 1])
  }

  /** Reading a numeral: None unless `s` is a non-empty string of digits. */
  function Parse(s: string, base: Base): Option<nat>
  {
    if |s| > 0 && IsDigits(s, base) then Some(Value(s, base)) else None
  }

  function Pow(base: nat, e: nat): nat
  {
    if e == 0 then 1 else base * Pow(base, e - 1)
  }

  /** `s` padded on the left with '0' to at least `width` characters, as by `%0<width>x`. */
  function PadLeft(s: string, width: nat): (r: string)
    ensures |r| == if |s| < width then width else |s|
    ensures r[|r| - |s|..] == s
    ensures forall i :: 0 <= i < |r| - |s| ==> r[i] == '0'
  {
    if |s| >= width then s else Zeros(width - |s|) + s
  }

  function Zeros(k: nat): (r: string)
    ensures |r| == k && forall i :: 0 <= i < k ==> r[i] == '0'
  {
    seq(k, _ => '0')
  }

  lemma {:induction false} DigitRoundTrip(d: nat)
    requires d < 16
    ensures DigitValue(DigitChar(d)) == d
  {
  }

  /** Reading back a shown numeral gives the number: `Show` is the inverse of `Parse`. */
  lemma ParseShow(n: nat, base: Base)
    ensures Parse(Show(n, base), base) == Some(n)
  {
    ValueShow(n, base);
  }

  lemma {:induction false} ValueShow(n: nat, base: Base)
    ensures Value(Show(n, base), base) == n
    decreases n
  {
    if n < base {
      DigitRoundTrip(n);
      assert Show(n, base)[..0] == [];
    } else {
      var q, d := n / base, n % base;
      var t := Show(q, base);
      var s := t + [DigitChar(d)];
      assert Show(n, base) == s;
      DivLess(n, base);
      ValueShow(q, base);
      assert s[..|s| - 1] == t;
      DigitRoundTrip(d);
      assert Value(s, base) == Value(t, base) * base + d;
      DivMod(n, base);
    }
  }

  lemma DivLess(n: nat, base: Base)
    requires n >= 1
    ensures n / base < n
  {
    DivMod(n, base);
    assert (n / base) * base >= (n / base) * 2;
  }

  lemma DivMod(n: nat, base: Base)
    ensures (n / base) * base + n % base == n
  {
  }

  /** Distinct numbers have distinct numerals. */
  lemma ShowInjective(m: nat, n: nat, base: Base)
    requires Show(m, base) == Show(n, base)
    ensures m == n
  {
    ValueShow(m, base);
    ValueShow(n, base);
  }

  /** Reading a concatenation: the left part is shifted by one base power per
      character of the right part. */
  lemma {:induction false} ValueAppend(a: string, b: string, base: Base)
    ensures Value(a + b, base) == Value(a, base) * Pow(base, |b|) + Value(b, base)
    decreases |b|
  {
    if |b| == 0 {
      assert a + b == a;
    } else {
      var b' := b[..|b| - 1];
      var d := DigitValue(b[|b| - 1]);
      assert (a + b)[..|a + b| - 1] == a + b';
      assert (a + b)[|a + b| - 1] == b[|b| - 1];
      ValueAppend(a, b', base);
      var va, vb, p := Value(a, base), Value(b', base), Pow(base, |b'|);
      assert Value(a + b, base) == (va * p + vb) * base + d;
      assert Pow(base, |b|) == base * p;
      assert Value(b, base) == vb * base + d;
      MulDistrib(va, p, vb, base);
    }
  }

  lemma MulDistrib(x: nat, p: nat, y: nat, base: nat)
    ensures (x * p + y) * base == x * (base * p) + y * base
  {
  }

  lemma {:induction false} ValueZeros(k: nat, base: Base)
    ensures Value(Zeros(k), base) == 0
  {
    if k > 0 {
      assert Zeros(k)[..k - 1] == Zeros(k - 1);
      ValueZeros(k - 1, base);
    }
  }

  /** Zero padding does not change the value: `%07x` reads back like `%x`. */
  lemma ValuePadLeft(s: string, width: nat, base: Base)
    ensures Value(PadLeft(s, width), base) == Value(s, base)
  {
    if |s| < width {
      ValueAppend(Zeros(width - |s|), s, base);
      ValueZeros(width - |s|, base);
    }
  }

  /** A numeral of at most `k` digits denotes a number below base^k, and so a
      number below base^k never needs more than `k` digits. */
  lemma {:induction false} ShowLength(n: nat, base: Base, k: nat)
    requires k >= 1 && n < Pow(base, k)
    ensures |Show(n, base)| <= k
    decreases n
  {
    if n >= base {
      var q := n / base;
      assert Pow(base, k) == base * Pow(base, k - 1);
      DivBound(n, base, Pow(base, k - 1));
      DivLess(n, base);
      ShowLength(q, base, k - 1);
      assert Show(n, base) == Show(q, base) + [DigitChar(n % base)];
    }
  }

  lemma DivBound(n: nat, base: Base, p: nat)
    requires n < base * p
    ensures n / base < p
  {
  }

  /** A zero-padded numeral reads back as its value. */
  lemma ParsePadded(n: nat, base: Base, width: nat)
    ensures Parse(PadLeft(Show(n, base), width), base) == Some(n)
  {
    var s := Show(n, base);
    ValueShow(n, base);
    ValuePadLeft(s, width, base);
    PadLeftDigits(s, width, base);
  }

  lemma PadLeftDigits(s: string, width: nat, base: Base)
    requires IsDigits(s, base)
    ensures IsDigits(PadLeft(s, width), base)
  {
    var r := PadLeft(s, width);
    forall i | 0 <= i < |r|
      ensures DigitValue(r[i]) < base
    {
      if i >= |r| - |s| {
        assert r[i] == s[i - (|r| - |s|)];
      }
    }
  }
}

=== FILE: regression.dfy ===
/** The regression run as a sequential state machine: each step is one pass
    through a worker's loop in `do_worker` (claim an index, run that test,
    count it; or publish the counters and stop), and the aggregator in `main`
    sums the published counters. Any interleaving of the workers is a
    schedule: a sequence of worker numbers. The simulator's output for test
    `i` is `outputs[i]`, so a test's verdict does not depend on which worker
    runs it. */
module Regression {
  import opened Wrappers
  import opened WorkQueue
  import IsaTest

  /** A worker's private counters, and whether it has left its loop (after
      publishing them). */
  datatype Worker = Worker(executed: nat, passed: nat, done: bool)

  /** The shared state: the claim cursor, the workers, and the results table
      that holds worker w's counters in slots 2w and 2w+1. */
  datatype RunState = RunState(cursor: nat, workers: seq<Worker>, results: seq<nat>)

  /** Before any worker starts: cursor 0, counters 0, a zeroed results table
      of two slots per worker. */
  function Start(k: nat): (st: RunState)
    ensures |st.workers| == k && |st.results| == 2 * k && st.cursor == 0
    ensures forall i :: 0 <= i < 2 * k ==> st.results[i] == 0
    ensures forall w :: 0 <= w < k ==> st.workers[w] == Worker(0, 0, false)
  {
    RunState(0, seq(k, _ => Worker(0, 0, false)), seq(2 * k, _ => 0))
  }

  /** One pass through the loop of worker `w`. A worker that has returned
      takes no more steps. */
  function Step(st: RunState, w: nat, outputs: seq<string>): (r: RunState)
    requires w < |st.workers| && |st.results| == 2 * |st.workers|
    ensures |r.workers| == |st.workers| && |r.results| == |st.results|
    ensures st.workers[w].done ==> r == st
    ensures !st.workers[w].done ==> r.cursor == st.cursor + 1
    ensures forall v :: 0 <= v < |st.workers| && v != w ==> r.workers[v] == st.workers[v]
    ensures forall v :: 0 <= v < |st.workers| && v != w ==>
              r.results[2 * v] == st.results[2 * v] && r.results[2 * v + 1] == st.results[2 * v + 1]
    ensures !st.workers[w].done && st.cursor < |outputs| ==>
              && r.workers[w].executed == st.workers[w].executed + 1
              && r.workers[w].passed == st.workers[w].passed + (if IsaTest.Passed(outputs[st.cursor]) then 1 else 0)
              && !r.workers[w].done && r.results == st.results
    ensures !st.workers[w].done && |outputs| <= st.cursor ==>
              && r.workers[w] == st.workers[w].(done := true)
              && r.results[2 * w] == st.workers[w].executed
              && r.results[2 * w + 1] == st.workers[w].passed
  {
    var me := st.workers[w];
    if me.done then st
    else
      var (claim, next) := ClaimNext(st.cursor, |outputs|);
      match claim
      case Exhausted =>
        RunState(next, st.workers[w := me.(done := true)],
                 st.results[2 * w := me.executed][2 * w + 1 := me.passed])
      case Job(i) =>
        var passed := IsaTest.Passed(outputs[i]);
        RunState(next, st.workers[w := Worker(me.executed + 1, if passed then me.passed + 1 else me.passed, false)],
                 st.results)
  }

  /** The steps of a whole schedule, in order. */
  function RunSchedule(st: RunState, schedule: seq<nat>, outputs: seq<string>): (r: RunState)
    requires |st.results| == 2 * |st.workers|
    requires forall i :: 0 <= i < |schedule| ==> schedule[i] < |st.workers|
    ensures |r.workers| == |st.workers| && |r.results| == |st.results|
    decreases |schedule|
  {
    if |schedule| == 0 then st
    else RunSchedule(Step(st, schedule[0], outputs), schedule[1..], outputs)
  }

  function Min(a: nat, b: nat): nat
  {
    if a < b then a else b
  }

  /** How many of the first `m` tests pass. */
  function CountPassed(outputs: seq<string>, m: nat): nat
    requires m <= |outputs|
  {
    if m == 0 then 0
    else CountPassed(outputs, m - 1) + (if IsaTest.Passed(outputs[m - 1]) then 1 else 0)
  }

  function SumExecuted(ws: seq<Worker>): nat
  {
    if |ws| == 0 then 0 else SumExecuted(ws[..|ws| - 1]) + ws[|ws| - 1].executed
  }

  function SumPassed(ws: seq<Worker>): nat
  {
    if |ws| == 0 then 0 else SumPassed(ws[..|ws| - 1]) + ws[|ws| - 1].passed
  }

  function DoneCount(ws: seq<Worker>): nat
  {
    if |ws| == 0 then 0 else DoneCount(ws[..|ws| - 1]) + (if ws[|ws| - 1].done then 1 else 0)
  }

  /** Worker `w`'s slots hold its counters once it is done, and zero before. */
  predicate Published(st: RunState, w: nat)
    requires w < |st.workers| && |st.results| == 2 * |st.workers|
  {
    if st.workers[w].done
    then st.results[2 * w] == st.workers[w].executed && st.results[2 * w + 1] == st.workers[w].passed
    else st.results[2 * w] == 0 && st.results[2 * w + 1] == 0
  }

  /** What holds between steps: no worker has passed more tests than it ran;
      the results table shows exactly the finished workers' counters; the
      workers together have run each of the first min(cursor, n) tests once
      and counted the passing ones among them; and every claim past the end
      of the list belongs to a distinct finished worker. */
  ghost predicate Inv(st: RunState, outputs: seq<string>)
  {
    var n := |outputs|;
    && |st.results| == 2 * |st.workers|
    && (forall w :: 0 <= w < |st.workers| ==> st.workers[w].passed <= st.workers[w].executed)
    && (forall w :: 0 <= w < |st.workers| ==> Published(st, w))
    && SumExecuted(st.workers) == Min(st.cursor, n)
    && SumPassed(st.workers) == CountPassed(outputs, Min(st.cursor, n))
    && (st.cursor <= n ==> DoneCount(st.workers) == 0)
    && (n <= st.cursor ==> st.cursor == n + DoneCount(st.workers))
  }

  /** Replacing one worker changes each sum by the difference. */
  lemma {:induction false} SumsUpdate(ws: seq<Worker>, w: nat, x: Worker)
    requires w < |ws|
    ensures SumExecuted(ws[w := x]) == SumExecuted(ws) - ws[w].executed + x.executed
    ensures SumPassed(ws[w := x]) == SumPassed(ws) - ws[w].passed + x.passed
    ensures DoneCount(ws[w := x]) == DoneCount(ws) - (if ws[w].done then 1 else 0) + (if x.done then 1 else 0)
    decreases |ws|
  {
    var ws' := ws[w := x];
    var last := |ws| - 1;
    if w == last {
      assert ws'[..last] == ws[..last];
    } else {
      assert ws'[..last] == ws[..last][w := x];
      SumsUpdate(ws[..last], w, x);
    }
  }

  lemma {:induction false} DoneCountBound(ws: seq<Worker>)
    ensures DoneCount(ws) <= |ws|
    ensures DoneCount(ws) == |ws| <==> forall w :: 0 <= w < |ws| ==> ws[w].done
  {
    if |ws| > 0 {
      var pre := ws[..|ws| - 1];
      DoneCountBound(pre);
      assert forall w :: 0 <= w < |pre| ==> pre[w] == ws[w];
    }
  }

  lemma StartInv(k: nat, outputs: seq<string>)
    ensures Inv(Start(k), outputs)
  {
    var ws := Start(k).workers;
    ZeroSums(ws);
  }

  lemma {:induction false} ZeroSums(ws: seq<Worker>)
    requires forall w :: 0 <= w < |ws| ==> ws[w] == Worker(0, 0, false)
    ensures SumExecuted(ws) == 0 && SumPassed(ws) == 0 && DoneCount(ws) == 0
  {
    if |ws| > 0 {
      ZeroSums(ws[..|ws| - 1]);
    }
  }

  /** Every step keeps the invariant, whichever worker takes it. */
  lemma StepInv(st: RunState, w: nat, outputs: seq<string>)
    requires Inv(st, outputs) && w < |st.workers|
    ensures Inv(Step(st, w, outputs), outputs)
  {
    var r := Step(st, w, outputs);
    var n := |outputs|;
    var me := st.workers[w];
    if !me.done {
      SumsUpdate(st.workers, w, r.workers[w]);
      assert r.workers == st.workers[w := r.workers[w]];
      forall v | 0 <= v < |r.workers| ensures Published(r, v) {
        assert Published(st, v);
      }
      if st.cursor < n {
        assert Min(r.cursor, n) == Min(st.cursor, n) + 1;
      }
    }
  }

  /** Any schedule keeps the invariant. */
  lemma {:induction false} RunScheduleInv(st: RunState, schedule: seq<nat>, outputs: seq<string>)
    requires Inv(st, outputs)
    requires forall i :: 0 <= i < |schedule| ==> schedule[i] < |st.workers|
    ensures Inv(RunSchedule(st, schedule, outputs), outputs)
    decreases |schedule|
  {
    if |schedule| > 0 {
      StepInv(st, schedule[0], outputs);
      RunScheduleInv(Step(st, schedule[0], outputs), schedule[1..], outputs);
    }
  }

  /** The aggregator's grand totals. */
  datatype Totals = Totals(executed: nat, passed: nat)

  /** The aggregator's loop: the sums of slots 2w (executed) and 2w+1
      (passed) over the first `k` workers. When no worker reports more passes
      than tests, neither do the totals, so the printed FAIL count is not
      negative. */
  function Aggregate(results: seq<nat>, k: nat): (r: Totals)
    requires 2 * k <= |results|
    ensures (forall w :: 0 <= w < k ==> results[2 * w + 1] <= results[2 * w]) ==> r.passed <= r.executed
  {
    if k == 0 then Totals(0, 0)
    else
      var t := Aggregate(results, k - 1);
      Totals(t.executed + results[2 * (k - 1)], t.passed + results[2 * (k - 1) + 1])
  }

  /** Once every worker is done, the aggregated totals are the workers' own
      counters summed. */
  lemma {:induction false} AggregatePublished(st: RunState, k: nat)
    requires |st.results| == 2 * |st.workers| && k <= |st.workers|
    requires forall w :: 0 <= w < |st.workers| ==> Published(st, w) && st.workers[w].done
    ensures Aggregate(st.results, k) == Totals(SumExecuted(st.workers[..k]), SumPassed(st.workers[..k]))
  {
    if k > 0 {
      AggregatePublished(st, k - 1);
      assert st.workers[..k][..k - 1] == st.workers[..k - 1];
      assert Published(st, k - 1);
    }
  }

  /** The printed summary: total tests, executed, PASS and FAIL. */
  datatype Summary = Summary(total: nat, executed: nat, pass: nat, fail: int)

  function Report(n: nat, t: Totals): Summary
  {
    Summary(n, t.executed, t.passed, t.executed - t.passed)
  }

  /** Once every worker has finished (with at least one worker), the grand
      totals are exact: every test ran once, and the passes are the tests
      whose output says PASS. */
  lemma AllDoneTotals(st: RunState, outputs: seq<string>)
    requires Inv(st, outputs) && |st.workers| >= 1
    requires forall w :: 0 <= w < |st.workers| ==> st.workers[w].done
    ensures Aggregate(st.results, |st.workers|) == Totals(|outputs|, CountPassed(outputs, |outputs|))
  {
    DoneCountBound(st.workers);
    AggregatePublished(st, |st.workers|);
    assert st.workers[..|st.workers|] == st.workers;
  }

  /** The whole run after the test list is known: nothing happens for an
      empty list; otherwise `k` workers start, take steps in the order of
      `schedule` (any interleaving), and then keep stepping until each has
      returned, after which the totals are reported. With at least one
      worker every test runs exactly once; with none, nothing runs. */
  method RunRegression(outputs: seq<string>, k: nat, schedule: seq<nat>) returns (s: Option<Summary>)
    requires forall i :: 0 <= i < |schedule| ==> schedule[i] < k
    ensures s.None? <==> |outputs| == 0
    ensures s.Some? ==> s.value.total == |outputs|
    ensures s.Some? && k >= 1 ==>
              && s.value.executed == |outputs|
              && s.value.pass == CountPassed(outputs, |outputs|)
              && s.value.fail == |outputs| - CountPassed(outputs, |outputs|)
    ensures s.Some? && k == 0 ==> s.value.executed == 0 && s.value.pass == 0 && s.value.fail == 0
  {
    if |outputs| == 0 {
      return None;
    }
    var st := Start(k);
    StartInv(k, outputs);
    var i := 0;
    while i < |schedule|
      invariant 0 <= i <= |schedule|
      invariant |st.workers| == k && Inv(st, outputs)
    {
      StepInv(st, schedule[i], outputs);
      st := Step(st, schedule[i], outputs);
      i := i + 1;
    }
    while exists w :: 0 <= w < k && !st.workers[w].done
      invariant |st.workers| == k && Inv(st, outputs)
      decreases |outputs| + k - st.cursor
    {
      var w :| 0 <= w < k && !st.workers[w].done;
      DoneCountBound(st.workers);
      StepInv(st, w, outputs);
      st := Step(st, w, outputs);
    }
    var totals := Aggregate(st.results, k);
    if k >= 1 {
      AllDoneTotals(st, outputs);
      CountPassedBound(outputs, |outputs|);
    } else {
      assert totals == Totals(0, 0);
    }
    s := Some(Report(|outputs|, totals));
  }

  lemma {:induction false} CountPassedBound(outputs: seq<string>, m: nat)
    requires m <= |outputs|
    ensures CountPassed(outputs, m) <= m
  {
    if m > 0 {
      CountPassedBound(outputs, m - 1);
    }
  }
}

=== FILE: strings.dfy ===
/** The parts of Python's string and `os.path` behaviour that the regression
    runner relies on. Strings are sequences of characters; case mapping covers
    the ASCII letters only. */
module Strings {
  import opened Wrappers

  /** `t` occurs in `s` starting at index `i`. */
  predicate OccursAt(s: string, t: string, i: nat)
  {
    i + |t| <= |s| && s[i..i + |t|] == t
  }

  /** `i` is the first index at which `t` occurs in `s`. */
  predicate FirstOccurrence(s: string, t: string, i: nat)
  {
    OccursAt(s, t, i) && forall j: nat :: j < i ==> !OccursAt(s, t, j)
  }

  /** `s.find (t)`: the first index of `t` in `s`, None standing for -1. */
  function Find(s: string, t: string): (r: Option<nat>)
    ensures r.Some? ==> FirstOccurrence(s, t, r.value)
    ensures r.None? ==> forall i: nat :: !OccursAt(s, t, i)
  {
    FindFrom(s, t, 0)
  }

  function FindFrom(s: string, t: string, from: nat): (r: Option<nat>)
    ensures r.Some? ==> from <= r.value && OccursAt(s, t, r.value)
    ensures r.Some? ==> forall j: nat :: from <= j < r.value ==> !OccursAt(s, t, j)
    ensures r.None? ==> forall j: nat :: from <= j ==> !OccursAt(s, t, j)
    decreases |s| - from
  {
    if from + |t| > |s| then None
    else if s[from..from + |t|] == t then Some(from)
    else FindFrom(s, t, from + 1)
  }

  /** `t in s`, or equivalently `s.find (t) != -1`. */
  function Contains(s: string, t: string): (r: bool)
    ensures r <==> exists i: nat :: OccursAt(s, t, i)
  {
    Find(s, t).Some?
  }

  function UpperChar(c: char): char
  {
    if 'a' <= c <= 'z' then (c as int - 32) as char else c
  }

  function LowerChar(c: char): char
  {
    if 'A' <= c <= 'Z' then (c as int + 32) as char else c
  }

  /** `s.upper ()` on ASCII text. */
  function Upper(s: string): (r: string)
    ensures |r| == |s|
    ensures forall i :: 0 <= i < |s| ==> r[i] == UpperChar(s[i])
  {
    seq(|s|, i requires 0 <= i < |s| => UpperChar(s[i]))
  }

  /** `s.lower ()` on ASCII text. */
  function Lower(s: string): (r: string)
    ensures |r| == |s|
    ensures forall i :: 0 <= i < |s| ==> r[i] == LowerChar(s[i])
  {
    seq(|s|, i requires 0 <= i < |s| => LowerChar(s[i]))
  }

  /** The index of the last `c` in `s`. */
  function LastIndexOf(s: string, c: char): (r: Option<nat>)
    ensures r.Some? ==> r.value < |s| && s[r.value] == c
    ensures r.Some? ==> forall j :: r.value < j < |s| ==> s[j] != c
    ensures r.None? ==> c !in s
  {
    if |s| == 0 then None
    else if s[|s| - 1] == c then Some(|s| - 1)
    else LastIndexOf(s[..|s| - 1], c)
  }

  /** The tail of `os.path.split (path)`: everything after the last '/'.
      It is the longest suffix of `path` that holds no '/'. */
  function Basename(path: string): (r: string)
    ensures '/' !in r
    ensures |r| <= |path| && path[|path| - |r|..] == r
    ensures |r| < |path| ==> path[|path| - |r| - 1] == '/'
  {
    match LastIndexOf(path, '/')
    case None => path
    case Some(i) => path[i + 1..]
  }

  /** `os.path.join (a, b)` on POSIX: an absolute `b` replaces `a`; otherwise a
      '/' is inserted unless `a` is empty or already ends in one. */
  function Join(a: string, b: string): string
  {
    if |b| > 0 && b[0] == '/' then b
    else if |a| == 0 || a[|a| - 1] == '/' then a + b
    else a + "/" + b
  }

  /** The directory part that `Join (a, b)` puts in front of a relative `b`. */
  function JoinPrefix(a: string): string
  {
    if |a| == 0 || a[|a| - 1] == '/' then a else a + "/"
  }

  /** Joining a relative name appends it, after a separator, to a fixed prefix
      that depends on `a` alone; the name is then the basename of the result. */
  lemma JoinRelative(a: string, b: string)
    requires |b| > 0 && '/' !in b
    ensures Join(a, b) == JoinPrefix(a) + b
    ensures Basename(Join(a, b)) == b
  {
    var r := Join(a, b);
    var p := JoinPrefix(a);
    assert r == p + b;
    assert |p| == 0 || p[|p| - 1] == '/';
    assert r[|p|..] == b;
  }

  /** Joining two relative names in turn puts a '/' between them. */
  lemma JoinNested(a: string, d: string, n: string)
    requires |d| > 0 && '/' !in d && |n| > 0 && '/' !in n
    ensures Join(Join(a, d), n) == JoinPrefix(a) + d + "/" + n
    ensures Basename(Join(Join(a, d), n)) == n
  {
    JoinRelative(a, d);
    var j := JoinPrefix(a) + d;
    assert j[|j| - 1] == d[|d| - 1];
    assert JoinPrefix(j) == j + "/";
    JoinRelative(j, n);
  }

  lemma AppendAssoc<T>(x: seq<T>, y: seq<T>, z: seq<T>)
    ensures x + (y + z) == x + y + z
  {
  }

  /** `s.rsplit ('.', 1)[0]`: `s` up to its last '.', or all of `s` if it has none. */
  function BeforeLastDot(s: string): (r: string)
    ensures '.' in s ==> |r| < |s| && s[|r|] == '.' && '.' !in s[|r| + 1..]
    ensures '.' !in s ==> r == s
    ensures |r| <= |s| && s[..|r|] == r
  {
    match LastIndexOf(s, '.')
    case None => s
    case Some(i) => s[..i]
  }

  /** Cutting at the last '.' of `p + "." + e`, where `e` has none, gives back `p`. */
  lemma BeforeLastDotOfExtension(p: string, e: string)
    requires '.' !in e
    ensures BeforeLastDot(p + "." + e) == p
  {
    var s := p + "." + e;
    assert s[|p|] == '.';
    assert s[|p| + 1..] == e;
  }
}

=== FILE: test_families.dfy ===
/** `select_test_families` of the regression runner: the names of the ISA test
    families (such as "rv32ui-p") implied by an architecture string. */
module TestFamilies {
  import opened Strings

  /** The optional extensions, in the order their families are appended. */
  const Extensions: string := "mafdc"

  /** "32" if the (lower-cased) architecture mentions 32, else "64". */
  function Width(a: string): string
  {
    if Contains(a, "32") then "32" else "64"
  }

  /** A family name: "rv", the width, then a four-character tag such as "ui-p". */
  function Family(width: string, tag: string): string
  {
    "rv" + width + tag
  }

  /** The tag of extension `x`'s physical-memory family, "u<x>-p". */
  function PTag(x: char): string
  {
    "u" + [x] + "-p"
  }

  /** The tag of extension `x`'s virtual-memory family, "u<x>-v". */
  function VTag(x: char): string
  {
    "u" + [x] + "-v"
  }

  /** The tags extension letter `x` contributes: none if it does not occur
      in `a`, else "u<x>-p", followed by "u<x>-v" in supervisor mode. */
  function LetterTags(a: string, supervisor: bool, x: char): seq<string>
  {
    if Contains(a, [x]) then [PTag(x)] + (if supervisor then [VTag(x)] else []) else []
  }

  /** The tags of the optional extensions present in `a`: "u<x>-p" for each
      extension letter x, followed by "u<x>-v" when supervisor mode is present. */
  function ExtensionTags(a: string, supervisor: bool, exts: string): (r: seq<string>)
    ensures |r| == Present(a, exts) * (if supervisor then 2 else 1)
    ensures forall i :: 0 <= i < |r| ==> |r[i]| == 4 && r[i][0] == 'u' && r[i][1] in exts
  {
    if |exts| == 0 then []
    else
      var here := LetterTags(a, supervisor, exts[0]);
      var rest := ExtensionTags(a, supervisor, exts[1..]);
      assert forall i :: 0 <= i < |rest| ==> rest[i][1] in exts by {
        forall i | 0 <= i < |rest| ensures rest[i][1] in exts {
          assert rest[i][1] in exts[1..];
        }
      }
      here + rest
  }

  /** The extension tags are exactly those contributed by some letter of `exts`. */
  lemma {:induction false} ExtensionTagsMembers(a: string, supervisor: bool, exts: string, t: string)
    ensures t in ExtensionTags(a, supervisor, exts) <==>
            exists i :: 0 <= i < |exts| && IsExtensionTag(a, supervisor, exts[i], t)
  {
    if |exts| > 0 {
      var here := LetterTags(a, supervisor, exts[0]);
      var rest := ExtensionTags(a, supervisor, exts[1..]);
      assert ExtensionTags(a, supervisor, exts) == here + rest;
      assert t in here <==> IsExtensionTag(a, supervisor, exts[0], t);
      ExtensionTagsMembers(a, supervisor, exts[1..], t);
      if exists i :: 1 <= i < |exts| && IsExtensionTag(a, supervisor, exts[i], t) {
        var i :| 1 <= i < |exts| && IsExtensionTag(a, supervisor, exts[i], t);
        assert exts[1..][i - 1] == exts[i];
      }
      if exists i :: 0 <= i < |exts[1..]| && IsExtensionTag(a, supervisor, exts[1..][i], t) {
        var i :| 0 <= i < |exts[1..]| && IsExtensionTag(a, supervisor, exts[1..][i], t);
        assert exts[1..][i] == exts[i + 1];
      }
    }
  }

  /** Distinct extension letters give distinct tags. */
  lemma {:induction false} ExtensionTagsDistinct(a: string, supervisor: bool, exts: string)
    requires Distinct(exts)
    ensures Distinct(ExtensionTags(a, supervisor, exts))
  {
    if |exts| > 0 {
      var x := exts[0];
      var here := LetterTags(a, supervisor, x);
      var rest := ExtensionTags(a, supervisor, exts[1..]);
      assert Distinct(exts[1..]);
      ExtensionTagsDistinct(a, supervisor, exts[1..]);
      assert (PTag(x))[3] != (VTag(x))[3];
      forall i, j | 0 <= i < |here| && 0 <= j < |rest| ensures here[i] != rest[j] {
        assert here[i][1] == x;
        var k :| 0 <= k < |exts[1..]| && exts[1..][k] == rest[j][1];
        assert exts[k + 1] == rest[j][1];
      }
      DistinctAppend(here, rest);
      assert ExtensionTags(a, supervisor, exts) == here + rest;
    }
  }

  /** `t` is a tag contributed by extension letter `x`. */
  predicate IsExtensionTag(a: string, supervisor: bool, x: char, t: string)
  {
    Contains(a, [x]) && (t == PTag(x) || (supervisor && t == VTag(x)))
  }

  /** How many letters of `exts` occur in `a`. */
  function Present(a: string, exts: string): nat
  {
    if |exts| == 0 then 0
    else (if Contains(a, [exts[0]]) then 1 else 0) + Present(a, exts[1..])
  }

  predicate Distinct<T(==)>(s: seq<T>)
  {
    forall i, j :: 0 <= i < j < |s| ==> s[i] != s[j]
  }

  lemma DistinctAppend(a: seq<string>, b: seq<string>)
    requires Distinct(a) && Distinct(b)
    requires forall i, j :: 0 <= i < |a| && 0 <= j < |b| ==> a[i] != b[j]
    ensures Distinct(a + b)
  {
  }

  /** The tags of all selected families, in the order they are appended. */
  function FamilyTags(a: string): (r: seq<string>)
    ensures forall i :: 0 <= i < |r| ==> |r[i]| == 4
  {
    var supervisor := Contains(a, "s");
    ["ui-p", "mi-p"]
      + (if supervisor then ["ui-v", "si-p"] else [])
      + ExtensionTags(a, supervisor, Extensions)
  }

  /** The family list for an architecture string. It starts with the user and
      machine integer families; "s" anywhere in the lower-cased string adds the
      virtual-memory user family and the supervisor family; each of m, a, f, d,
      c that occurs adds its own families. */
  function SelectTestFamilies(arch: string): (r: seq<string>)
    ensures var a := Lower(arch);
            var s := if Contains(a, "s") then 1 else 0;
            |r| == 2 + 2 * s + Present(a, Extensions) * (1 + s)
    ensures |r| >= 2 && r[0] == Family(Width(Lower(arch)), "ui-p") && r[1] == Family(Width(Lower(arch)), "mi-p")
    ensures Contains(Lower(arch), "s") ==>
              |r| >= 4 && r[2] == Family(Width(Lower(arch)), "ui-v") && r[3] == Family(Width(Lower(arch)), "si-p")
    ensures forall i :: 0 <= i < |r| ==> |r[i]| == 8 && r[i][..4] == "rv" + Width(Lower(arch))
  {
    var a := Lower(arch);
    Families(Width(a), FamilyTags(a))
  }

  /** The family of each tag, in order. */
  function Families(width: string, tags: seq<string>): (r: seq<string>)
    ensures |r| == |tags|
    ensures forall i :: 0 <= i < |tags| ==> r[i] == Family(width, tags[i])
  {
    if |tags| == 0 then []
    else Families(width, tags[..|tags| - 1]) + [Family(width, tags[|tags| - 1])]
  }

  /** Which families an architecture string selects, stated directly: the
      width prefix, then the integer tags, the supervisor tags when "s" is
      present, and the tags of each extension letter present. */
  predicate Selected(arch: string, f: string)
  {
    var a := Lower(arch);
    var supervisor := Contains(a, "s");
    && |f| == 8
    && f[..4] == "rv" + Width(a)
    && var t := f[4..];
       || t == "ui-p" || t == "mi-p"
       || (supervisor && (t == "ui-v" || t == "si-p"))
       || exists i :: 0 <= i < |Extensions| && IsExtensionTag(a, supervisor, Extensions[i], t)
  }

  lemma FamilyParts(w: string, t: string)
    requires |w| == 2 && |t| == 4
    ensures |Family(w, t)| == 8 && Family(w, t)[..4] == "rv" + w && Family(w, t)[4..] == t
  {
  }

  /** A family is in the list exactly when the architecture selects it. */
  lemma SelectedFamilies(arch: string, f: string)
    ensures f in SelectTestFamilies(arch) <==> Selected(arch, f)
  {
    if f in SelectTestFamilies(arch) {
      ListedIsSelected(arch, f);
    }
    if Selected(arch, f) {
      SelectedIsListed(arch, f);
    }
  }

  lemma ListedIsSelected(arch: string, f: string)
    requires f in SelectTestFamilies(arch)
    ensures Selected(arch, f)
  {
    var a := Lower(arch);
    var tags := FamilyTags(a);
    var r := SelectTestFamilies(arch);
    var i :| 0 <= i < |r| && r[i] == f;
    FamilyParts(Width(a), tags[i]);
    var supervisor := Contains(a, "s");
    var base := ["ui-p", "mi-p"] + (if supervisor then ["ui-v", "si-p"] else []);
    var ext := ExtensionTags(a, supervisor, Extensions);
    assert tags == base + ext;
    if |base| <= i {
      assert tags[i] == ext[i - |base|];
      ExtensionTagsMembers(a, supervisor, Extensions, tags[i]);
    }
  }

  lemma SelectedIsListed(arch: string, f: string)
    requires Selected(arch, f)
    ensures f in SelectTestFamilies(arch)
  {
    var a := Lower(arch);
    var tags := FamilyTags(a);
    var t := f[4..];
    assert f == Family(Width(a), t);
    var supervisor := Contains(a, "s");
    var base := ["ui-p", "mi-p"] + (if supervisor then ["ui-v", "si-p"] else []);
    var ext := ExtensionTags(a, supervisor, Extensions);
    assert tags == base + ext;
    if t !in base {
      ExtensionTagsMembers(a, supervisor, Extensions, t);
    }
    assert t in tags;
    var i :| 0 <= i < |tags| && tags[i] == t;
    assert SelectTestFamilies(arch)[i] == f;
  }

  /** No family is listed twice. */
  lemma SelectedFamiliesDistinct(arch: string)
    ensures Distinct(SelectTestFamilies(arch))
  {
    var a := Lower(arch);
    var w := Width(a);
    var tags := FamilyTags(a);
    FamilyTagsDistinct(a);
    var r := SelectTestFamilies(arch);
    forall i, j | 0 <= i < j < |r| ensures r[i] != r[j] {
      FamilyParts(w, tags[i]);
      FamilyParts(w, tags[j]);
    }
  }

  /** No tag is produced twice. */
  lemma FamilyTagsDistinct(a: string)
    ensures Distinct(FamilyTags(a))
  {
    var supervisor := Contains(a, "s");
    var base := ["ui-p", "mi-p"] + (if supervisor then ["ui-v", "si-p"] else []);
    var ext := ExtensionTags(a, supervisor, Extensions);
    ExtensionTagsDistinct(a, supervisor, Extensions);
    forall i, j | 0 <= i < |base| && 0 <= j < |ext| ensures base[i] != ext[j] {
      assert ext[j][1] in Extensions;
      assert base[i][0] != 'u' || base[i][1] == 'i';
    }
    DistinctAppend(base, ext);
    assert FamilyTags(a) == base + ext;
  }

  /** The tags of a concatenation of letter lists are the tags of each part. */
  lemma {:induction false} ExtensionTagsAppend(a: string, supervisor: bool, x: string, y: string)
    ensures ExtensionTags(a, supervisor, x + y) == ExtensionTags(a, supervisor, x) + ExtensionTags(a, supervisor, y)
  {
    if |x| == 0 {
      assert x + y == y;
    } else {
      assert (x + y)[0] == x[0] && (x + y)[1..] == x[1..] + y;
      ExtensionTagsAppend(a, supervisor, x[1..], y);
      var here := LetterTags(a, supervisor, x[0]);
      assert ExtensionTags(a, supervisor, x + y) == here + ExtensionTags(a, supervisor, x[1..] + y);
      AppendAssoc(here, ExtensionTags(a, supervisor, x[1..]), ExtensionTags(a, supervisor, y));
    }
  }

  /** The extension tags are those of the letters before `exts[k]`, then
      the tags of `exts[k]` itself, then those of the letters after it. */
  lemma ExtensionTagsSplit(a: string, supervisor: bool, exts: string, k: nat)
    requires k < |exts|
    ensures ExtensionTags(a, supervisor, exts)
              == ExtensionTags(a, supervisor, exts[..k]) + LetterTags(a, supervisor, exts[k])
                 + ExtensionTags(a, supervisor, exts[k + 1..])
  {
    assert exts == exts[..k] + ([exts[k]] + exts[k + 1..]);
    ExtensionTagsAppend(a, supervisor, exts[..k], [exts[k]] + exts[k + 1..]);
    assert ([exts[k]] + exts[k + 1..])[0] == exts[k] && ([exts[k]] + exts[k + 1..])[1..] == exts[k + 1..];
    assert ExtensionTags(a, supervisor, [exts[k]] + exts[k + 1..])
             == LetterTags(a, supervisor, exts[k]) + ExtensionTags(a, supervisor, exts[k + 1..]);
    AppendAssoc(ExtensionTags(a, supervisor, exts[..k]), LetterTags(a, supervisor, exts[k]),
                ExtensionTags(a, supervisor, exts[k + 1..]));
  }

  /** The order of the whole list: after the two integer families (and the
      two supervisor families when "s" occurs), each present letter of
      "mafdc" has its "-p" family, then its "-v" family in supervisor mode,
      right after the families of the letters before it. Together with the
      length this fixes every entry. */
  lemma {:induction false} FamilyPosition(arch: string, k: nat)
    requires k < |Extensions| && Contains(Lower(arch), [Extensions[k]])
    ensures var a := Lower(arch);
            var m := if Contains(a, "s") then 2 else 1;
            var j := 2 * m + |ExtensionTags(a, Contains(a, "s"), Extensions[..k])|;
            var r := SelectTestFamilies(arch);
            && j + m <= |r|
            && r[j] == Family(Width(a), PTag(Extensions[k]))
            && (Contains(a, "s") ==> r[j + 1] == Family(Width(a), VTag(Extensions[k])))
  {
    var a := Lower(arch);
    TagPosition(a, k);
  }

  /** The same position in the tag list. */
  lemma {:induction false} TagPosition(a: string, k: nat)
    requires k < |Extensions| && Contains(a, [Extensions[k]])
    ensures var supervisor := Contains(a, "s");
            var m := if supervisor then 2 else 1;
            var j := 2 * m + |ExtensionTags(a, supervisor, Extensions[..k])|;
            var tags := FamilyTags(a);
            && j + m <= |tags|
            && tags[j] == PTag(Extensions[k])
            && (supervisor ==> tags[j + 1] == VTag(Extensions[k]))
  {
    var supervisor := Contains(a, "s");
    var x := ["ui-p", "mi-p"] + (if supervisor then ["ui-v", "si-p"] else []) + ExtensionTags(a, supervisor, Extensions[..k]);
    var mine := LetterTags(a, supervisor, Extensions[k]);
    var after := ExtensionTags(a, supervisor, Extensions[k + 1..]);
    FamilyTagsSplit(a, k);
    assert mine == [PTag(Extensions[k])] + (if supervisor then [VTag(Extensions[k])] else []);
    Middle(x, mine, after, 0);
    if supervisor {
      Middle(x, mine, after, 1);
    }
  }

  /** The tag list split around the tags of extension letter `k`. */
  lemma FamilyTagsSplit(a: string, k: nat)
    requires k < |Extensions|
    ensures var supervisor := Contains(a, "s");
            var base := ["ui-p", "mi-p"] + (if supervisor then ["ui-v", "si-p"] else []);
            FamilyTags(a) == (base + ExtensionTags(a, supervisor, Extensions[..k])) + LetterTags(a, supervisor, Extensions[k])
                 + ExtensionTags(a, supervisor, Extensions[k + 1..])
  {
    var supervisor := Contains(a, "s");
    ExtensionTagsSplit(a, supervisor, Extensions, k);
    var base := ["ui-p", "mi-p"] + (if supervisor then ["ui-v", "si-p"] else []);
    var before := ExtensionTags(a, supervisor, Extensions[..k]);
    var mine := LetterTags(a, supervisor, Extensions[k]);
    var after := ExtensionTags(a, supervisor, Extensions[k + 1..]);
    assert FamilyTags(a) == base + (before + mine + after);
    AppendAssoc(base, before + mine, after);
    AppendAssoc(base, before, mine);
  }

  lemma Middle<T>(x: seq<T>, y: seq<T>, z: seq<T>, i: nat)
    requires i < |y|
    ensures |x| + i < |x + y + z| && (x + y + z)[|x| + i] == y[i]
  {
  }

  /** Of two present extension letters, the earlier one in "mafdc" has its
      families listed first: all of them come before those of the later one. */
  lemma {:induction false} ExtensionFamiliesInOrder(arch: string, k: nat, l: nat)
    requires k < l < |Extensions|
    requires Contains(Lower(arch), [Extensions[k]])
    ensures var a := Lower(arch);
            var supervisor := Contains(a, "s");
            |ExtensionTags(a, supervisor, Extensions[..k])| + |LetterTags(a, supervisor, Extensions[k])|
              <= |ExtensionTags(a, supervisor, Extensions[..l])|
  {
    var a := Lower(arch);
    var supervisor := Contains(a, "s");
    var pre := Extensions[..l];
    ExtensionTagsSplit(a, supervisor, pre, k);
    assert pre[..k] == Extensions[..k] && pre[k] == Extensions[k];
  }

}

=== FILE: test_filter.dfy ===
/** The regular-file filter the runner applies while walking the test
    directory (`fn_filter_regular_file` in `main`), lifted out of its closure:
    the family list and the exclude list become parameters. */
module TestFilter {
  import opened Strings

  /** The loop over the families: true at the first family found in `basename`. */
  function MatchesSomeFamily(basename: string, families: seq<string>): (r: bool)
    ensures r <==> exists i :: 0 <= i < |families| && Contains(basename, families[i])
  {
    if |families| == 0 then false
    else if Contains(basename, families[0]) then true
    else
      var r := MatchesSomeFamily(basename, families[1..]);
      assert forall i :: 1 <= i < |families| ==> families[i] == families[1..][i - 1];
      r
  }

  /** A file is taken as an ELF test iff its basename has no '.', it is not
      on the exclude list, and some family name occurs in it. */
  function AcceptElfFile(basename: string, families: seq<string>, exclude: seq<string>): (r: bool)
    ensures r <==> && !Contains(basename, ".")
                   && basename !in exclude
                   && exists i :: 0 <= i < |families| && Contains(basename, families[i])
  {
    if Contains(basename, ".") then false
    else if basename in exclude then false
    else MatchesSomeFamily(basename, families)
  }

  /** The filter as the directory walk calls it, on a full path: the test
      is made on the part after the last '/'. */
  function AcceptPath(path: string, families: seq<string>, exclude: seq<string>): (r: bool)
    ensures var name := Basename(path);
            r <==> && !Contains(name, ".")
                   && name !in exclude
                   && exists i :: 0 <= i < |families| && Contains(name, families[i])
  {
    AcceptElfFile(Basename(path), families, exclude)
  }

  /** A '.' in the directory part does not matter; only the basename is examined. */
  lemma DirectoryIrrelevant(dir: string, name: string, families: seq<string>, exclude: seq<string>)
    requires |name| > 0 && '/' !in name
    ensures AcceptPath(Join(dir, name), families, exclude) == AcceptElfFile(name, families, exclude)
  {
    JoinRelative(dir, name);
  }
}

=== FILE: work_queue.dfy ===
/** The shared work cursor of the regression runner: a counter that every
    worker reads and increments under a lock to claim the next test. Only the
    sequential effect of each locked claim is modelled; any interleaving of
    workers is a sequence of claims. */
module WorkQueue {

  /** What one claim hands back: a test index, or the news that the list is used up. */
  datatype Claim = Job(index: nat) | Exhausted

  /** One claim on a list of `n` tests: the cursor is read and incremented
      unconditionally, and the value read is a job exactly when it is below `n`. */
  function ClaimNext(cursor: nat, n: nat): (r: (Claim, nat))
    ensures r.1 == cursor + 1
    ensures r.0.Exhausted? <==> n <= cursor
    ensures r.0.Job? ==> r.0.index == cursor < n
  {
    (if cursor < n then Job(cursor) else Exhausted, cursor + 1)
  }

  /** One claim in the global order: which worker made it, and what it got. */
  datatype ClaimEvent = ClaimEvent(worker: nat, claim: Claim)

  /** The claims made by the workers listed in `schedule`, in that order,
      starting from a fresh cursor; together with the final cursor. The k-th
      claim gets index k while k is below `n` and is exhausted afterwards,
      whoever makes it. */
  function Interleave(n: nat, schedule: seq<nat>): (r: (seq<ClaimEvent>, nat))
    ensures r.1 == |schedule| && |r.0| == |schedule|
    ensures forall k :: 0 <= k < |schedule| ==> r.0[k].worker == schedule[k]
    ensures forall k :: 0 <= k < |schedule| ==> r.0[k].claim == if k < n then Job(k) else Exhausted
  {
    if |schedule| == 0 then ([], 0)
    else
      var (events, cursor) := Interleave(n, schedule[..|schedule| - 1]);
      var (claim, next) := ClaimNext(cursor, n);
      (events + [ClaimEvent(schedule[|schedule| - 1], claim)], next)
  }

  /** No test index is handed out twice, whatever the interleaving. */
  lemma ClaimsDistinct(n: nat, schedule: seq<nat>, k: nat, l: nat)
    requires k < l < |schedule|
    requires Interleave(n, schedule).0[k].claim.Job? && Interleave(n, schedule).0[l].claim.Job?
    ensures Interleave(n, schedule).0[k].claim.index != Interleave(n, schedule).0[l].claim.index
  {
  }

  /** Every handed-out index is a valid test index. */
  lemma ClaimsInRange(n: nat, schedule: seq<nat>, k: nat)
    requires k < |schedule| && Interleave(n, schedule).0[k].claim.Job?
    ensures Interleave(n, schedule).0[k].claim.index < n
  {
  }

  /** Once `n` claims have been made, every index in [0, n) has been handed out
      exactly once. */
  lemma ClaimsExactlyOnce(n: nat, schedule: seq<nat>, x: nat)
    requires n <= |schedule| && x < n
    ensures exists k :: 0 <= k < |schedule| && Interleave(n, schedule).0[k].claim == Job(x)
    ensures forall k :: 0 <= k < |schedule| && Interleave(n, schedule).0[k].claim == Job(x) ==> k == x
  {
    assert Interleave(n, schedule).0[x].claim == Job(x);
  }
}

=== FILE: wrappers.dfy ===
/** Failure-carrying return types for the error exits of the modelled programs:
    `sys.exit (1)` in the regression runner and `exit (1)` in the ELF converter. */
module Wrappers {

  /** A value that may be absent. */
  datatype Option<+T> = None | Some(value: T)

  /** Either a successful value or the reason the program stopped. */
  datatype Result<+T, +E> = Ok(value: T) | Err(error: E)
}
